=== FILE: README.md ===
# compose-pdf layout core in Dafny

A model of the layout and render-dispatch core of compose-pdf, a Kotlin
library that describes PDF pages with Compose-like builders. A page is a
list of root components, each paired with a position. A component is one of
four kinds:

- a text run (`TextImpl`);
- an empty spacer (`SpacerImpl`);
- a vertical stack (`Column`);
- a horizontal stack (`Row`).

Rendering a page has three steps:

1. **Measure.** Each component reports a size under min/max `Constraints`.
2. **Place.** A stack assigns each child an absolute position. It walks the
   children in order and advances along its main axis by each child's size
   under `Constraints.DEFAULT`.
3. **Flatten and render.** A FIFO worklist turns the tree into one sequence
   of positioned entries in breadth-first order. Each text entry then becomes
   a draw command with the y axis flipped. Spacers and stacks draw nothing.

Modules, in dependency order:

| module | covers |
|---|---|
| `Wrappers` | `Option` and `Result`, used to model nullable fields and the `require` failures of constructors |
| `Units` | `PdfUnit` (point, millimetre, inch) and conversion into points |
| `Geometry` | `Size`, `Position`, `Rect` and their point factories |
| `Layout` | `Constraints`, its validating constructor, `coerceIn` and clamping, `fixed`, `create`, `DEFAULT` |
| `Modifiers` | `Modifier`, `Padding`, `dp` and `sp` |
| `Style` | `FontWeight` and `Color` with channel validation |
| `Nodes` | the closed component tree, its factories and builder scopes, and the listing of every node of a tree |
| `Measurement` | `measure` for all four kinds; Column and Row share one axis-parametrised fold |
| `Placement` | `placeChildren` for Column and Row |
| `Expansion` | the block structure of any breadth-first worklist result, stated for an arbitrary expansion function |
| `Flattening` | `PdfScope` and the worklist loop of `renderToPdf` |
| `FlattenBlocks` | where each stack's children land in the flattened output |
| `Render` | font selection, `renderComponent` as abstract draw commands, and the whole render pass |

Modelling choices:

- Kotlin `Float` is a Dafny `real`. An upper bound of `Float.POSITIVE_INFINITY`
  is the `Unbounded` case of `Bound`.
- The `require` checks of `Constraints` and `Color` are `Result`-valued
  constructors. The first failing check decides the error.
- Kotlin objects have identity, but Dafny values do not. "Every node is
  processed exactly once" is therefore stated as a multiset equality between
  the flattened nodes and every subtree of the scene.
- The breadth-first order is stated as a fixed point. The output starts with
  the roots. After the roots comes `ExpandAll(Expand, out)`: the placed
  children of each output entry in turn, in output order. The expansion of
  entry `i` always begins after position `i`.

Behaviour of the code that the model keeps as written:

- `PdfScope.Text` defaults its weight to bold. The free-standing `text` and
  `Text` factories default to normal.
- Measurement ignores padding.
- Placement honours only left and top padding.
- A stack measures its children under its own incoming constraints. It places
  them using their sizes under `Constraints.DEFAULT`.
- The renderer ignores `fontFamily`. Only the weight chooses the font.

## Model

| member | source | states |
|---|---|---|
| Units.ToPoints | src/main/kotlin/dev/jamiecraane/vibe/compose/pdf/units/PdfUnit.kt:7-59 | conversion into points is a positive scaling: a zero length stays zero and a positive length stays positive |
| Units.ConversionConstants | src/main/kotlin/dev/jamiecraane/vibe/compose/pdf/units/PdfUnit.kt:14-59 | a point converts to itself, a millimetre to 2.83465 points, an inch to 72 points |
| Units.ToPointsLinear | src/main/kotlin/dev/jamiecraane/vibe/compose/pdf/units/PdfUnit.kt:38-59 | within one unit, conversion preserves sums and scalar multiples |
| Units.ToPointsMonotone | src/main/kotlin/dev/jamiecraane/vibe/compose/pdf/units/PdfUnit.kt:38-59 | within one unit, conversion preserves order, in both directions |
| Units.OfIntAgrees | src/main/kotlin/dev/jamiecraane/vibe/compose/pdf/units/PdfUnit.kt:30-70 | the `of(Int)` factories agree with the float ones on the widened value |
| Units.MillimeterInchDrift | src/main/kotlin/dev/jamiecraane/vibe/compose/pdf/units/PdfUnit.kt:34-59 | 25.4 mm converts to 72.00011 points, not exactly one inch, because 2.83465 rounds 72/25.4 |
| Geometry.SizeFromPoints | src/main/kotlin/dev/jamiecraane/vibe/compose/pdf/layout/Geometry.kt:29-30 | the built size reads back the given width and height in points |
| Geometry.SizeFromIntPoints | src/main/kotlin/dev/jamiecraane/vibe/compose/pdf/layout/Geometry.kt:35-36 | the Int factory equals the float factory on the widened arguments |
| Geometry.PositionFromPoints | src/main/kotlin/dev/jamiecraane/vibe/compose/pdf/layout/Geometry.kt:68-69 | the built position reads back the given x and y in points |
| Geometry.PositionFromIntPoints | src/main/kotlin/dev/jamiecraane/vibe/compose/pdf/layout/Geometry.kt:74-75 | the Int factory equals the float factory on the widened arguments |
| Geometry.FromLTRB | src/main/kotlin/dev/jamiecraane/vibe/compose/pdf/layout/Geometry.kt:131-135 | the rectangle built from four edges reads back those same four edges |
| Geometry.RectEdges | src/main/kotlin/dev/jamiecraane/vibe/compose/pdf/layout/Geometry.kt:94-125 | right = left + width and bottom = top + height for every rectangle |
| Geometry.ZeroConstants | src/main/kotlin/dev/jamiecraane/vibe/compose/pdf/layout/Geometry.kt:41-140 | the ZERO size, position and rectangle have all coordinates zero and equal the factories applied to zeros |
| Layout.NewConstraints | src/main/kotlin/dev/jamiecraane/vibe/compose/pdf/layout/Layout.kt:28-33 | construction succeeds iff minima are non-negative and maxima are at least the minima; otherwise the first failing check decides the error |
| Layout.CoerceIn | src/main/kotlin/dev/jamiecraane/vibe/compose/pdf/layout/Layout.kt:38-43 | the result lies in [lo, hi], and a value already inside is returned unchanged |
| Layout.CoerceInNearest | src/main/kotlin/dev/jamiecraane/vibe/compose/pdf/layout/Layout.kt:38-43 | the clamped value is at least as close to the input as any point of [lo, hi] |
| Layout.ConstrainWidth | src/main/kotlin/dev/jamiecraane/vibe/compose/pdf/layout/Layout.kt:38 | the result lies within the width bounds and equals an input already inside them |
| Layout.ConstrainHeight | src/main/kotlin/dev/jamiecraane/vibe/compose/pdf/layout/Layout.kt:43 | the result lies within the height bounds and equals an input already inside them |
| Layout.Constrain | src/main/kotlin/dev/jamiecraane/vibe/compose/pdf/layout/Layout.kt:48-52 | the clamped size lies within the constraints, and a size already inside keeps its extents |
| Layout.ConstrainIdempotent | src/main/kotlin/dev/jamiecraane/vibe/compose/pdf/layout/Layout.kt:38-52 | clamping twice is clamping once, per axis and for sizes |
| Layout.ConstrainAxesIndependent | src/main/kotlin/dev/jamiecraane/vibe/compose/pdf/layout/Layout.kt:48-52 | the clamped width depends only on the width and the clamped height only on the height |
| Layout.Fixed | src/main/kotlin/dev/jamiecraane/vibe/compose/pdf/layout/Layout.kt:58-59 | fixed constraints exist iff both extents are non-negative, and then both bounds of each axis equal the extent |
| Layout.FixedForces | src/main/kotlin/dev/jamiecraane/vibe/compose/pdf/layout/Layout.kt:58-59 | under fixed constraints every width clamps to the fixed width and every height to the fixed height |
| Layout.DefaultConstraints | src/main/kotlin/dev/jamiecraane/vibe/compose/pdf/layout/Layout.kt:64-74 | `create()` yields DEFAULT, which is valid and only lifts negative extents to zero |
| Layout.InvalidConstraintsRejected | src/main/kotlin/dev/jamiecraane/vibe/compose/pdf/layout/Layout.kt:28-33 | a maximum below the minimum is rejected with the max-width error, also through `create` |
| Layout.Create | src/main/kotlin/dev/jamiecraane/vibe/compose/pdf/layout/Layout.kt:64-69 | `create` succeeds exactly on valid bounds and then holds exactly the given bounds |
| Modifiers.PaddingAll | src/main/kotlin/dev/jamiecraane/vibe/compose/pdf/components/Modifier.kt:67-69 | all four sides get the given value |
| Modifiers.WithHeight | src/main/kotlin/dev/jamiecraane/vibe/compose/pdf/components/Modifier.kt:26-28 | sets the height and keeps width and padding |
| Modifiers.WithWidth | src/main/kotlin/dev/jamiecraane/vibe/compose/pdf/components/Modifier.kt:36-38 | sets the width and keeps height and padding |
| Modifiers.WithPadding | src/main/kotlin/dev/jamiecraane/vibe/compose/pdf/components/Modifier.kt:46-48 | sets the padding and keeps height and width |
| Modifiers.SettersCommuteAndOverwrite | src/main/kotlin/dev/jamiecraane/vibe/compose/pdf/components/Modifier.kt:26-48 | setters on different fields commute; on the same field the last call wins |
| Modifiers.Defaults | src/main/kotlin/dev/jamiecraane/vibe/compose/pdf/components/Modifier.kt:8-69 | `Modifier.None` has no height, width or padding; `Padding()` has every side zero, the same as `Padding.all(0)`, and a named side overrides only that side |
| Modifiers.Dp | src/main/kotlin/dev/jamiecraane/vibe/compose/pdf/components/Modifier.kt:76-77 | dp enlarges positive lengths and keeps zero |
| Modifiers.Sp | src/main/kotlin/dev/jamiecraane/vibe/compose/pdf/components/Modifier.kt:82-83 | one sp is one point, so dp is 1.5 times sp |
| Modifiers.DpLinear | src/main/kotlin/dev/jamiecraane/vibe/compose/pdf/components/Modifier.kt:76-83 | dp is linear with factor 1.5, i.e. 1.5 times sp |
| Style.NewColor | src/main/kotlin/dev/jamiecraane/vibe/compose/pdf/components/Text.kt:55-66 | a colour is built iff every channel is in 0..255; otherwise the first failing channel decides the error |
| Style.ColorValidation | src/main/kotlin/dev/jamiecraane/vibe/compose/pdf/components/Text.kt:55-66 | channels 256 and -1 are rejected, and an omitted alpha is 255 |
| Style.NamedColors | src/main/kotlin/dev/jamiecraane/vibe/compose/pdf/components/Text.kt:68-74 | Black, White, Red, Green and Blue are valid, opaque and have the stated channels |
| Nodes.Text | src/main/kotlin/dev/jamiecraane/vibe/compose/pdf/components/Text.kt:87-93 | the factory builds a text node holding exactly the given fields |
| Nodes.TextDefaults | src/main/kotlin/dev/jamiecraane/vibe/compose/pdf/components/Text.kt:87-93 | the defaults are size 12, Helvetica, normal weight and opaque black |
| Nodes.Spacer | src/main/kotlin/dev/jamiecraane/vibe/compose/pdf/components/Spacer.kt:33-38 | the factory wraps the given modifier unchanged |
| Nodes.ColumnAdd | src/main/kotlin/dev/jamiecraane/vibe/compose/pdf/components/Column.kt:95-97 | `add` appends exactly one child at the end and keeps the earlier children and the modifier |
| Nodes.RowAdd | src/main/kotlin/dev/jamiecraane/vibe/compose/pdf/components/Row.kt:95-97 | `add` appends exactly one child at the end and keeps the earlier children and the modifier |
| Nodes.BuildColumn | src/main/kotlin/dev/jamiecraane/vibe/compose/pdf/components/Column.kt:75-84 | adding the contents one by one to an empty column gives the column whose children are exactly those contents, in order |
| Nodes.BuildRow | src/main/kotlin/dev/jamiecraane/vibe/compose/pdf/components/Row.kt:75-84 | adding the contents one by one to an empty row gives the row whose children are exactly those contents, in order |
| Measurement.MaxOr0 | src/main/kotlin/dev/jamiecraane/vibe/compose/pdf/components/Column.kt:21-27 | the running maximum started at 0 is the least non-negative upper bound of the extents |
| Measurement.StackFoldIsSumAndMax | src/main/kotlin/dev/jamiecraane/vibe/compose/pdf/components/Column.kt:20-29 | the accumulation loop computes the sum of the main extents and the maximum of the cross extents and the start value |
| Measurement.Measure | src/main/kotlin/dev/jamiecraane/vibe/compose/pdf/layout/Layout.kt:8-16 | every node's measured size lies within the constraints it was measured under |
| Measurement.ScopeMeasure | src/main/kotlin/dev/jamiecraane/vibe/compose/pdf/layout/Layout.kt:108-112 | the measure scope's result lies within the constraints |
| Measurement.ScopeMeasureDelegates | src/main/kotlin/dev/jamiecraane/vibe/compose/pdf/layout/Layout.kt:108-112 | `BasicMeasureScope.measure(m, c)` is exactly `m.measure(c)` |
| Measurement.ColumnMeasure | src/main/kotlin/dev/jamiecraane/vibe/compose/pdf/components/Column.kt:19-39 | height is the clamped sum of child heights and width the clamped widest child (at least 0), with explicit modifier extents taking precedence |
| Measurement.RowMeasure | src/main/kotlin/dev/jamiecraane/vibe/compose/pdf/components/Row.kt:19-39 | width is the clamped sum of child widths and height the clamped tallest child (at least 0), with explicit modifier extents taking precedence |
| Measurement.ExplicitSizeOverrides | src/main/kotlin/dev/jamiecraane/vibe/compose/pdf/components/Column.kt:31-38 | with explicit width and height the size does not depend on the children and is the clamped explicit size |
| Measurement.EmptyStackMeasure | src/main/kotlin/dev/jamiecraane/vibe/compose/pdf/components/Column.kt:19-39 | a childless stack measures as its clamped explicit size, zero where absent |
| Measurement.TextMeasure | src/main/kotlin/dev/jamiecraane/vibe/compose/pdf/components/Text.kt:24-34 | a text run measures the clamped (length × size × 0.6, size × 1.2) |
| Measurement.TextIntrinsicSize | src/main/kotlin/dev/jamiecraane/vibe/compose/pdf/components/Text.kt:27-28 | height does not depend on content, empty text has zero width, and each character adds size × 0.6 |
| Measurement.SpacerMeasure | src/main/kotlin/dev/jamiecraane/vibe/compose/pdf/components/Spacer.kt:16-25 | a spacer measures its clamped modifier extents, zero where absent |
| Placement.PlaceAlongNodes | src/main/kotlin/dev/jamiecraane/vibe/compose/pdf/components/Column.kt:58-63 | the placement loop yields one entry per child, in the children's order |
| Placement.PlaceAlongCoords | src/main/kotlin/dev/jamiecraane/vibe/compose/pdf/components/Column.kt:57-63 | child i sits at the start plus the sum of the earlier children's default extents, and every child shares the cross coordinate |
| Placement.PlaceChildren | src/main/kotlin/dev/jamiecraane/vibe/compose/pdf/components/Column.kt:47-66 | a Column or Row places exactly one entry per child; where each lands is stated by `ColumnPlacement` and `RowPlacement` |
| Placement.PlaceChildrenNodes | src/main/kotlin/dev/jamiecraane/vibe/compose/pdf/components/Column.kt:47-66 | `placeChildren` places exactly the stack's children, in order |
| Placement.PlaceAlongStep | src/main/kotlin/dev/jamiecraane/vibe/compose/pdf/components/Column.kt:59-62 | each next child follows the previous one by the previous child's default-constraint extent |
| Placement.PlaceAlongMonotone | src/main/kotlin/dev/jamiecraane/vibe/compose/pdf/components/Column.kt:58-63 | main-axis coordinates never decrease along the children |
| Placement.ColumnPlacement | src/main/kotlin/dev/jamiecraane/vibe/compose/pdf/components/Column.kt:47-66 | children keep their order; all share x + paddingLeft; the first is at y + paddingTop; each next is lower by the previous child's default height; y never decreases |
| Placement.RowPlacement | src/main/kotlin/dev/jamiecraane/vibe/compose/pdf/components/Row.kt:47-66 | children keep their order; all share y + paddingTop; the first is at x + paddingLeft; each next is further right by the previous child's default width; x never decreases |
| Placement.TrailingPaddingIgnored | src/main/kotlin/dev/jamiecraane/vibe/compose/pdf/components/Column.kt:51-55 | right and bottom padding never change placement, and zero left/top padding places like no padding |
| Expansion.ExpandAllPrefix | src/main/kotlin/dev/jamiecraane/vibe/compose/pdf/ComposePdf.kt:151-163 | the expansions of a prefix of the output form a prefix of the expansions of the whole output |
| Expansion.ExpandAllBlock | src/main/kotlin/dev/jamiecraane/vibe/compose/pdf/ComposePdf.kt:151-163 | entry i's expansion directly follows the expansions of the entries before it |
| Expansion.ChildrenFollowParent | src/main/kotlin/dev/jamiecraane/vibe/compose/pdf/ComposePdf.kt:151-163 | in a breadth-first result, entry i's expansion is one contiguous block right after the roots and the earlier entries' blocks |
| Expansion.BlockAfterEntry | src/main/kotlin/dev/jamiecraane/vibe/compose/pdf/ComposePdf.kt:151-163 | when every block starts after its entry, entry i's expansion is one contiguous block strictly later in the output than entry i |
| Flattening.Add | src/main/kotlin/dev/jamiecraane/vibe/compose/pdf/ComposePdf.kt:74-76 | `add` appends exactly one root entry and keeps the earlier roots |
| Flattening.AddText | src/main/kotlin/dev/jamiecraane/vibe/compose/pdf/ComposePdf.kt:115-124 | appends one text entry at the origin with exactly the given fields |
| Flattening.AddColumn | src/main/kotlin/dev/jamiecraane/vibe/compose/pdf/ComposePdf.kt:84-90 | appends one column at the origin whose children are the built contents |
| Flattening.AddRow | src/main/kotlin/dev/jamiecraane/vibe/compose/pdf/ComposePdf.kt:98-104 | appends one row at the origin whose children are the built contents |
| Flattening.AddSpacer | src/main/kotlin/dev/jamiecraane/vibe/compose/pdf/ComposePdf.kt:131-134 | appends one spacer at the origin with the given modifier |
| Flattening.ExpandNodes | src/main/kotlin/dev/jamiecraane/vibe/compose/pdf/ComposePdf.kt:155-162 | one loop step enqueues exactly the node's children for a stack, and nothing for a leaf |
| Flattening.ForestStep | src/main/kotlin/dev/jamiecraane/vibe/compose/pdf/ComposePdf.kt:151-163 | replacing a tree by its root plus its children, appended at the back, keeps every node once |
| Flattening.WorklistStep | src/main/kotlin/dev/jamiecraane/vibe/compose/pdf/ComposePdf.kt:151-163 | dequeuing the head and enqueuing its placed children removes exactly that node from the nodes still to be output |
| Flattening.LoopStep | src/main/kotlin/dev/jamiecraane/vibe/compose/pdf/ComposePdf.kt:151-163 | one loop iteration preserves the loop invariant |
| Flattening.Flatten | src/main/kotlin/dev/jamiecraane/vibe/compose/pdf/ComposePdf.kt:144-163 | the output holds every node of the scene exactly once (as a multiset), starts with the roots, then lists the expansions of its own entries in order, each after its entry |
| FlattenBlocks.ExpandStack | src/main/kotlin/dev/jamiecraane/vibe/compose/pdf/ComposePdf.kt:155-161 | what the loop enqueues for a stack is its `placeChildren` result, one entry per child |
| FlattenBlocks.FlattenPlacesChildren | src/main/kotlin/dev/jamiecraane/vibe/compose/pdf/ComposePdf.kt:151-163 | in the flattened output every stack is followed, after itself, by one contiguous block holding exactly its children at their `placeChildren` positions |
| Flattening.ExampleSceneSize | src/main/kotlin/dev/jamiecraane/vibe/compose/pdf/ComposePdf.kt:144-163 | the scene [A(A1, A2), B] has four nodes |
| Flattening.BreadthFirstExample | src/main/kotlin/dev/jamiecraane/vibe/compose/pdf/ComposePdf.kt:144-163 | roots [A(A1, A2), B] flatten to [A, B, A1, A2], and A1 and A2 sit where A places them |
| Render.FontFor | src/main/kotlin/dev/jamiecraane/vibe/compose/pdf/ComposePdf.kt:195-200 | Helvetica Bold is chosen iff the weight is Bold |
| Render.RenderEntry | src/main/kotlin/dev/jamiecraane/vibe/compose/pdf/ComposePdf.kt:181-219 | a text entry yields one command with its text, size, colour and weight-selected font at x and pageHeight − y; other nodes yield none |
| Render.RenderAllAppend | src/main/kotlin/dev/jamiecraane/vibe/compose/pdf/ComposePdf.kt:166-168 | rendering keeps the order: the commands of a concatenation are concatenated |
| Render.RenderAllCount | src/main/kotlin/dev/jamiecraane/vibe/compose/pdf/ComposePdf.kt:166-168 | the render pass yields exactly one command per text entry |
| Render.RenderAllAt | src/main/kotlin/dev/jamiecraane/vibe/compose/pdf/ComposePdf.kt:166-168 | a text entry's command comes right after the commands of the earlier text entries |
| Render.RenderEntries | src/main/kotlin/dev/jamiecraane/vibe/compose/pdf/ComposePdf.kt:165-168 | the render loop yields the entries' commands in order, one per text entry |
| Render.RenderToPdf | src/main/kotlin/dev/jamiecraane/vibe/compose/pdf/ComposePdf.kt:139-169 | flattening lists every scene node once, roots first, in breadth-first block order; the number of commands is the number of text nodes in the scene |
| Render.HelloPdf | src/test/kotlin/dev/jamiecraane/vibe/compose/pdf/PdfGenerationTest.kt:20-31 | the tested document yields exactly one Helvetica Bold, size 24, blue command at x = 72, 72 points below the page top |

## Left out

- PDF output is outside the model. This covers `generatePdf`, the `try`/`finally` around it, `PdfDocument`, and the PDFBox page and content stream. The render pass stops at abstract draw commands. The AWT colour conversion, `beginText`/`setFont`/`newLineAtOffset`/`showText` and the page lookup are not part of this model.
- The page height (`page.mediaBox.height`) is a parameter of `RenderEntry`, `RenderEntries` and `RenderToPdf`, because it comes from the PDF document.
- `renderComponent` calls `measure` and `BasicLayoutScope.place` and then ignores both results; `place` is an empty placeholder. Neither affects what is drawn, so they are omitted.
- Builder lambdas (`Column(modifier) { ... }`, `ColumnScope.() -> Unit`) are modelled as the sequence of nodes the block adds. `BuildColumn` and `BuildRow` add them one at a time.
- The scope conveniences `ColumnScope.Text/Spacer/Row` and `RowScope.Text/Spacer/Column` are `add` of a node built by the free factory. They are covered by `ColumnAdd`/`RowAdd` together with `Text`, `Spacer`, `BuildColumn` and `BuildRow`.
- Scenes are finite, acyclic trees that do not change after they are added. In Kotlin, `Column` and `Row` expose a public mutable `children` list. A caller can therefore make a stack its own descendant, and then `measure` and the worklist loop never terminate. A caller can also add a child after `PdfScope.add`, and rendering then sees it. The model's `Node` is an inductive value, so `Flatten`'s termination and its "every node once" result hold only for scenes of this shape.
- Object identity is not modelled. The Kotlin worklist holds references, so one object added twice is one object processed twice. The model compares nodes by value and states the "once each" property as a multiset equality.
- Measurement.Measure: uses exact `real` arithmetic, not 32-bit `Float` arithmetic. Rounding, overflow to infinity and NaN are not modelled.
- Layout.NewConstraints: a minimum of positive infinity and NaN arguments are not modelled. Minima are finite reals; only the maxima may be infinite.
- Measurement.TextMeasure: uses the number of `char`s of a Dafny string. Kotlin's `String.length` counts UTF-16 code units.
- Units.OfIntAgrees: widens an `Int` exactly. Kotlin's `Int.toFloat()` rounds values above 2^24.
- Expansion.ChildrenFollowParent: is stated for any expansion function. The model uses it with `Flattening.Expand`, a stack's `placeChildren`.
- `getDocument`, `Main.kt` and the examples are left out: they do no layout.

=== FILE: Expansion.dfy ===
/** The shape of a breadth-first worklist result, for any expansion
    function: the output is the roots followed by the expansions of the
    output's own entries, one after another. Nothing here depends on what an
    expansion contains, only on how the blocks are laid end to end. */
module Expansion {

  /** The expansions of a sequence of items, one after another. */
  function ExpandAll<T>(expand: T -> seq<T>, es: seq<T>): seq<T>
    decreases |es|
  {
    if |es| == 0 then [] else ExpandAll(expand, es[..|es| - 1]) + expand(es[|es| - 1])
  }

  /** Appending an item appends its expansion. */
  lemma ExpandAllSnoc<T>(expand: T -> seq<T>, es: seq<T>, e: T)
    ensures ExpandAll(expand, es + [e]) == ExpandAll(expand, es) + expand(e)
  {
    assert (es + [e])[..|es|] == es;
  }

  lemma TakeOfConcat<T>(a: seq<T>, b: seq<T>, n: nat)
    requires n <= |a|
    ensures (a + b)[..n] == a[..n]
  {
  }

  /** The expansion of a prefix is a prefix of the expansion. */
  lemma {:induction false} ExpandAllPrefix<T>(expand: T -> seq<T>, es: seq<T>, i: nat)
    requires i <= |es|
    ensures |ExpandAll(expand, es[..i])| <= |ExpandAll(expand, es)|
    ensures ExpandAll(expand, es[..i]) == ExpandAll(expand, es)[..|ExpandAll(expand, es[..i])|]
    decreases |es| - i
  {
    if i < |es| {
      var front := es[..|es| - 1];
      assert es[..i] == front[..i];
      ExpandAllPrefix(expand, front, i);
      assert ExpandAll(expand, es) == ExpandAll(expand, front) + expand(es[|es| - 1]);
      TakeOfConcat(ExpandAll(expand, front), expand(es[|es| - 1]), |ExpandAll(expand, es[..i])|);
    } else {
      assert es[..i] == es;
    }
  }

  /** The expansion of item `i` follows those of the items before it within
      the expansion of the whole sequence. */
  lemma ExpandAllBlock<T>(expand: T -> seq<T>, es: seq<T>, i: nat)
    requires i < |es|
    ensures |ExpandAll(expand, es[..i]) + expand(es[i])| <= |ExpandAll(expand, es)|
    ensures ExpandAll(expand, es[..i]) + expand(es[i])
         == ExpandAll(expand, es)[..|ExpandAll(expand, es[..i]) + expand(es[i])|]
  {
    var p := es[..i + 1];
    ExpandAllPrefix(expand, es, i + 1);
    assert p[..|p| - 1] == es[..i] && p[|p| - 1] == es[i];
  }

  /** If `p + blk` is a prefix of `whole[n..]`, then `blk` sits in `whole`
      right after position `n + |p|`. */
  lemma BlockInTail<T>(whole: seq<T>, n: nat, p: seq<T>, blk: seq<T>)
    requires n <= |whole|
    requires |p + blk| <= |whole[n..]| && p + blk == whole[n..][..|p + blk|]
    ensures n + |p| + |blk| <= |whole|
    ensures whole[n + |p|..n + |p| + |blk|] == blk
  {
    forall k | 0 <= k < |blk|
      ensures whole[n + |p| + k] == blk[k]
    {
      assert whole[n + |p| + k] == whole[n..][|p| + k];
      assert (p + blk)[|p| + k] == blk[k];
    }
  }

  /** Breadth-first block structure of a worklist result `out` whose tail
      after the roots is the expansion of `out` itself: the expansion of
      entry `i` is one contiguous block of `out`, right after the roots and
      the blocks of the entries before `i`. */
  lemma ChildrenFollowParent<T>(expand: T -> seq<T>, roots: seq<T>, out: seq<T>, i: nat)
    requires |roots| <= |out| && out[|roots|..] == ExpandAll(expand, out)
    requires i < |out|
    ensures |roots| + |ExpandAll(expand, out[..i])| + |expand(out[i])| <= |out|
    ensures out[|roots| + |ExpandAll(expand, out[..i])|..|roots| + |ExpandAll(expand, out[..i])| + |expand(out[i])|]
         == expand(out[i])
  {
    ExpandAllBlock(expand, out, i);
    BlockInTail(out, |roots|, ExpandAll(expand, out[..i]), expand(out[i]));
  }

  /** When, in addition, every entry's expansion starts after that entry
      (as a FIFO worklist guarantees), entry `i`'s block lies strictly later
      in the output than entry `i` itself. */
  lemma BlockAfterEntry<T>(expand: T -> seq<T>, roots: seq<T>, out: seq<T>, i: nat)
    requires |roots| <= |out| && out[|roots|..] == ExpandAll(expand, out)
    requires forall j :: 0 <= j < |out| ==> j < |roots| + |ExpandAll(expand, out[..j])|
    requires i < |out|
    ensures var start := |roots| + |ExpandAll(expand, out[..i])|;
      && i < start
      && start + |expand(out[i])| <= |out|
      && out[start..start + |expand(out[i])|] == expand(out[i])
  {
    ChildrenFollowParent(expand, roots, out, i);
  }
}

=== FILE: FlattenBlocks.dfy ===
/** Where a stack's children end up in the flattened output. */
module FlattenBlocks {
  import opened Nodes
  import opened Placement
  import opened Expansion
  import opened Flattening

  /** In the output of `Flatten`, every stack is followed, later in the
      sequence, by one contiguous block holding exactly its children, each at
      the position the stack's `placeChildren` gives it. The block starts
      after the roots and the blocks of the entries before the stack. */
  lemma FlattenPlacesChildren(roots: seq<Entry>, out: seq<Entry>, i: nat)
    requires |roots| <= |out| && out[|roots|..] == ExpandAll(Expand, out)
    requires forall j :: 0 <= j < |out| ==> j < |roots| + |ExpandAll(Expand, out[..j])|
    requires i < |out| && IsContainer(out[i].node)
    ensures var start := |roots| + |ExpandAll(Expand, out[..i])|;
      && i < start
      && start + |out[i].node.children| <= |out|
      && out[start..start + |out[i].node.children|] == PlaceChildren(out[i].node, out[i].position)
      && NodesOf(out[start..start + |out[i].node.children|]) == out[i].node.children
  {
    BlockAfterEntry(Expand, roots, out, i);
    ExpandStack(out[i]);
    PlaceChildrenNodes(out[i].node, out[i].position);
  }

  /** A stack's expansion is its `placeChildren` result. */
  lemma ExpandStack(e: Entry)
    requires IsContainer(e.node)
    ensures Expand(e) == PlaceChildren(e.node, e.position)
    ensures |Expand(e)| == |e.node.children|
  {
  }
}

=== FILE: Flattening.dfy ===
/** The document scope and the flattening of its scene: a FIFO worklist
    seeded with the root entries turns nested stacks into one sequence of
    absolutely positioned entries, in breadth-first order. */
module Flattening {
  import opened Geometry
  import opened Modifiers
  import opened Style
  import opened Nodes
  import opened Placement
  import opened Expansion

  /** `PdfScope`: the root entries added so far, in call order. */
  datatype Scope = Scope(roots: seq<Entry>)

  const EmptyScope: Scope := Scope([])

  /** `PdfScope.add(measurable, position)`; the position defaults to the origin. */
  function Add(s: Scope, n: Node, position: Position := ZeroPosition): (r: Scope)
    ensures |r.roots| == |s.roots| + 1
    ensures r.roots[..|s.roots|] == s.roots
    ensures r.roots[|s.roots|] == Entry(n, position)
  {
    Scope(s.roots + [Entry(n, position)])
  }

  /** `PdfScope.Text(...)`: adds a text run at the origin. Unlike the
      free-standing `text` factory, its weight defaults to bold. */
  function AddText(s: Scope, text: string, fontSize: real := 12.0, fontFamily: string := "Helvetica",
                   fontWeight: FontWeight := Bold, color: Color := Black): (r: Scope)
    ensures r.roots == s.roots + [Entry(TextImpl(text, fontSize, fontFamily, fontWeight, color), ZeroPosition)]
  {
    Add(s, Text(text, fontSize, fontFamily, fontWeight, color))
  }

  /** `PdfScope.Column(modifier) { ... }`: adds the built column at the origin. */
  function AddColumn(s: Scope, modifier: Modifier := ModifierNone, contents: seq<Node> := []): (r: Scope)
    ensures r.roots == s.roots + [Entry(Column(modifier, contents), ZeroPosition)]
  {
    Add(s, BuildColumn(modifier, contents))
  }

  /** `PdfScope.Row(modifier) { ... }`: adds the built row at the origin. */
  function AddRow(s: Scope, modifier: Modifier := ModifierNone, contents: seq<Node> := []): (r: Scope)
    ensures r.roots == s.roots + [Entry(Row(modifier, contents), ZeroPosition)]
  {
    Add(s, BuildRow(modifier, contents))
  }

  /** `PdfScope.Spacer(modifier)`: adds a spacer at the origin. */
  function AddSpacer(s: Scope, modifier: Modifier := ModifierNone): (r: Scope)
    ensures r.roots == s.roots + [Entry(SpacerImpl(modifier), ZeroPosition)]
  {
    Add(s, Spacer(modifier))
  }

  /** What one step of the loop appends to the worklist for an entry: the
      placed children of a stack, nothing for a leaf. */
  function Expand(e: Entry): seq<Entry> {
    if IsContainer(e.node) then PlaceChildren(e.node, e.position) else []
  }

  /** The expansion holds exactly the node's children, in order. */
  lemma ExpandNodes(e: Entry)
    ensures NodesOf(Expand(e)) == Children(e.node)
  {
    if IsContainer(e.node) {
      PlaceChildrenNodes(e.node, e.position);
    }
  }

  /** Listing a tree in front of a forest lists the same nodes, once each,
      as the root followed by the forest with the root's children appended. */
  lemma ForestStep(h: Node, rest: seq<Node>)
    ensures |Forest([h] + rest)| == 1 + |Forest(rest + Children(h))|
    ensures multiset(Forest([h] + rest)) == multiset{h} + multiset(Forest(rest + Children(h)))
  {
    var all := [h] + rest;
    var below, after := Forest(Children(h)), Forest(rest);
    assert Forest(all) == [h] + below + after by {
      assert all[0] == h && all[1..] == rest;
      assert Subtrees(h) == [h] + below;
    }
    ForestAppend(rest, Children(h));
    MoveBlockBack(h, below, after);
  }

  /** Moving a block from the front to the back keeps the elements. */
  lemma MoveBlockBack<T>(h: T, x: seq<T>, y: seq<T>)
    ensures |[h] + x + y| == 1 + |y + x|
    ensures multiset([h] + x + y) == multiset{h} + multiset(y + x)
  {
  }

  lemma NodesOfCons(work: seq<Entry>)
    requires |work| > 0
    ensures NodesOf(work) == [work[0].node] + NodesOf(work[1..])
  {
    assert work == [work[0]] + work[1..];
    NodesOfAppend([work[0]], work[1..]);
  }

  lemma NodesOfWithExpansion(rest: seq<Entry>, head: Entry)
    ensures NodesOf(rest + Expand(head)) == NodesOf(rest) + Children(head.node)
  {
    NodesOfAppend(rest, Expand(head));
    ExpandNodes(head);
  }

  /** Taking the head off the worklist and appending its expansion removes
      exactly that one node from the nodes still to be listed. */
  lemma WorklistStep(work: seq<Entry>)
    requires |work| > 0
    ensures multiset(Forest(NodesOf(work)))
         == multiset{work[0].node} + multiset(Forest(NodesOf(work[1..] + Expand(work[0]))))
    ensures |Forest(NodesOf(work))| == 1 + |Forest(NodesOf(work[1..] + Expand(work[0])))|
  {
    var head, rest := work[0], work[1..];
    NodesOfCons(work);
    NodesOfWithExpansion(rest, head);
    ForestStep(head.node, NodesOf(rest));
  }

  /** The loop invariant: the output followed by the worklist is the roots
      followed by the expansions of the output; each output entry's
      expansion starts after it; and the output together with the trees of
      the worklist holds every node of the scene once. */
  ghost predicate LoopInvariant(roots: seq<Entry>, out: seq<Entry>, work: seq<Entry>) {
    && out + work == roots + ExpandAll(Expand, out)
    && (forall i :: 0 <= i < |out| ==> i < |roots| + |ExpandAll(Expand, out[..i])|)
    && multiset(NodesOf(out)) + multiset(Forest(NodesOf(work))) == multiset(Forest(NodesOf(roots)))
  }

  /** Moving the head of the worklist to the output and appending `e` to the
      worklist appends `e` to their concatenation. */
  lemma MoveHead<T>(done: seq<T>, work: seq<T>, e: seq<T>)
    requires |work| > 0
    ensures done + [work[0]] + (work[1..] + e) == done + work + e
  {
    assert [work[0]] + work[1..] == work;
  }

  /** One iteration keeps the output-plus-worklist equation. */
  lemma StepKeepsOrder(roots: seq<Entry>, out: seq<Entry>, work: seq<Entry>)
    requires |work| > 0
    requires out + work == roots + ExpandAll(Expand, out)
    ensures out + [work[0]] + (work[1..] + Expand(work[0])) == roots + ExpandAll(Expand, out + [work[0]])
  {
    var e := Expand(work[0]);
    calc {
      out + [work[0]] + (work[1..] + e);
      { MoveHead(out, work, e); }
      (out + work) + e;
      (roots + ExpandAll(Expand, out)) + e;
      { ConcatAssoc(roots, ExpandAll(Expand, out), e); }
      roots + (ExpandAll(Expand, out) + e);
      { ExpandAllSnoc(Expand, out, work[0]); }
      roots + ExpandAll(Expand, out + [work[0]]);
    }
  }

  lemma ConcatAssoc<T>(a: seq<T>, b: seq<T>, c: seq<T>)
    ensures (a + b) + c == a + (b + c)
  {
  }

  /** One iteration keeps every expansion starting after its entry. */
  lemma StepKeepsBlocksAhead(roots: seq<Entry>, out: seq<Entry>, work: seq<Entry>)
    requires |work| > 0
    requires out + work == roots + ExpandAll(Expand, out)
    requires forall i :: 0 <= i < |out| ==> i < |roots| + |ExpandAll(Expand, out[..i])|
    ensures forall i :: 0 <= i < |out| + 1 ==> i < |roots| + |ExpandAll(Expand, (out + [work[0]])[..i])|
  {
    var out' := out + [work[0]];
    forall i | 0 <= i < |out'|
      ensures i < |roots| + |ExpandAll(Expand, out'[..i])|
    {
      if i < |out| {
        assert out'[..i] == out[..i];
      } else {
        assert out'[..i] == out;
      }
    }
  }

  /** One iteration keeps every node of the scene accounted for exactly once. */
  lemma StepKeepsNodes(roots: seq<Entry>, out: seq<Entry>, work: seq<Entry>)
    requires |work| > 0
    requires multiset(NodesOf(out)) + multiset(Forest(NodesOf(work))) == multiset(Forest(NodesOf(roots)))
    ensures multiset(NodesOf(out + [work[0]])) + multiset(Forest(NodesOf(work[1..] + Expand(work[0]))))
         == multiset(Forest(NodesOf(roots)))
  {
    NodesOfSnoc(out, work[0]);
    WorklistStep(work);
    MultisetMove(multiset(NodesOf(out)), multiset(Forest(NodesOf(work))),
                 multiset(Forest(NodesOf(work[1..] + Expand(work[0])))), work[0].node);
  }

  lemma NodesOfSnoc(es: seq<Entry>, e: Entry)
    ensures multiset(NodesOf(es + [e])) == multiset(NodesOf(es)) + multiset{e.node}
  {
    assert NodesOf(es + [e]) == NodesOf(es) + [e.node];
  }

  lemma MultisetMove<T>(done: multiset<T>, todo: multiset<T>, todo': multiset<T>, x: T)
    requires todo == multiset{x} + todo'
    ensures done + multiset{x} + todo' == done + todo
  {
  }

  /** One iteration of the loop keeps the invariant. */
  lemma LoopStep(roots: seq<Entry>, out: seq<Entry>, work: seq<Entry>)
    requires |work| > 0
    requires LoopInvariant(roots, out, work)
    ensures LoopInvariant(roots, out + [work[0]], work[1..] + Expand(work[0]))
  {
    StepKeepsOrder(roots, out, work);
    StepKeepsBlocksAhead(roots, out, work);
    StepKeepsNodes(roots, out, work);
  }

  /** The invariant holds before the first iteration. */
  lemma LoopInit(roots: seq<Entry>)
    ensures LoopInvariant(roots, [], roots)
  {
    assert [] + roots == roots + ExpandAll(Expand, []);
    assert NodesOf([]) == [];
  }

  /** When the worklist is empty, the invariant gives the loop's results. */
  lemma LoopExit(roots: seq<Entry>, out: seq<Entry>)
    requires LoopInvariant(roots, out, [])
    ensures multiset(NodesOf(out)) == multiset(Forest(NodesOf(roots)))
    ensures |out| == |Forest(NodesOf(roots))|
    ensures |roots| <= |out| && out[..|roots|] == roots
    ensures out[|roots|..] == ExpandAll(Expand, out)
    ensures forall i :: 0 <= i < |out| ==> i < |roots| + |ExpandAll(Expand, out[..i])|
  {
    assert out + [] == out;
    assert NodesOf([]) == [] && Forest([]) == [];
    assert |multiset(NodesOf(out))| == |NodesOf(out)|;
    assert |multiset(Forest(NodesOf(roots)))| == |Forest(NodesOf(roots))|;
  }

  /** The worklist loop of `renderToPdf`: the head is removed and appended
      to the output, and a stack's placed children go to the tail. */
  method Flatten(roots: seq<Entry>) returns (out: seq<Entry>)
    ensures multiset(NodesOf(out)) == multiset(Forest(NodesOf(roots)))
    ensures |out| == |Forest(NodesOf(roots))|
    ensures |roots| <= |out| && out[..|roots|] == roots
    ensures out[|roots|..] == ExpandAll(Expand, out)
    ensures forall i :: 0 <= i < |out| ==> i < |roots| + |ExpandAll(Expand, out[..i])|
  {
    var work := roots;
    out := [];
    LoopInit(roots);
    while |work| > 0
      invariant LoopInvariant(roots, out, work)
      decreases |Forest(NodesOf(work))|
    {
      var head := work[0];
      var rest := work[1..];
      LoopStep(roots, out, work);
      WorklistStep(work);
      out := out + [head];
      if IsContainer(head.node) {
        rest := rest + PlaceChildren(head.node, head.position);
      } else {
        assert rest == work[1..] + Expand(head);
      }
      work := rest;
    }
    LoopExit(roots, out);
  }

  /** The scene `[A(A1, A2), B]` holds four nodes. */
  lemma ExampleSceneSize(a1: Node, a2: Node, b: Node, pa: Position, pb: Position)
    requires !IsContainer(a1) && !IsContainer(a2) && !IsContainer(b)
    ensures |Forest(NodesOf([Entry(Column(ModifierNone, [a1, a2]), pa), Entry(b, pb)]))| == 4
  {
    var a := Column(ModifierNone, [a1, a2]);
    assert NodesOf([Entry(a, pa), Entry(b, pb)]) == [a, b];
    assert Subtrees(a1) == [a1] && Subtrees(a2) == [a2] && Subtrees(b) == [b];
    assert Forest([a2]) == [a2];
    assert Forest([b]) == [b];
    assert Forest([a1, a2]) == [a1, a2] by {
      assert [a1, a2][1..] == [a2];
    }
    assert Subtrees(a) == [a, a1, a2];
    assert Forest([a, b]) == [a, a1, a2, b] by {
      assert [a, b][1..] == [b];
    }
  }

  /** A small scene: for roots `[A, B]` where `A` is a column of the leaves
      `A1, A2` and `B` is a leaf, the output is `[A, B, A1, A2]`, with `A1`
      and `A2` at the positions `A` gives them. */
  method BreadthFirstExample(a1: Node, a2: Node, b: Node, pa: Position, pb: Position)
    returns (out: seq<Entry>)
    requires !IsContainer(a1) && !IsContainer(a2) && !IsContainer(b)
    ensures |out| == 4
    ensures out[0] == Entry(Column(ModifierNone, [a1, a2]), pa)
    ensures out[1] == Entry(b, pb)
    ensures out[2].node == a1 && out[3].node == a2
    ensures out[2..] == PlaceChildren(Column(ModifierNone, [a1, a2]), pa)
  {
    var a := Column(ModifierNone, [a1, a2]);
    var roots := [Entry(a, pa), Entry(b, pb)];
    ExampleSceneSize(a1, a2, b, pa, pb);
    out := Flatten(roots);
    assert out[0] == roots[0] && out[1] == roots[1];
    assert out[..0] == [];
    ChildrenFollowParent(Expand, roots, out, 0);
    assert ExpandAll(Expand, out[..0]) == [];
    assert out[2..] == out[2..2 + |Expand(out[0])|];
    PlaceChildrenNodes(a, pa);
  }
}

=== FILE: Geometry.dfy ===
/** Sizes, positions and rectangles. Coordinates have their origin at the top
    left of the page and y grows downwards. */
module Geometry {
  import opened Units

  /** A width and a height, each in any unit. */
  datatype Size = Size(width: PdfUnit, height: PdfUnit)

  function WidthPt(s: Size): real {
    ToPoints(s.width)
  }

  function HeightPt(s: Size): real {
    ToPoints(s.height)
  }

  /** `Size.fromPoints(Float, Float)`. */
  function SizeFromPoints(width: real, height: real): (s: Size)
    ensures WidthPt(s) == width && HeightPt(s) == height
  {
    Size(Point(width), Point(height))
  }

  /** `Size.fromPoints(Int, Int)`. */
  function SizeFromIntPoints(width: int, height: int): (s: Size)
    ensures s == SizeFromPoints(width as real, height as real)
    ensures WidthPt(s) == width as real && HeightPt(s) == height as real
  {
    Size(Point(width as real), Point(height as real))
  }

  const ZeroSize: Size := Size(Point(0.0), Point(0.0))

  /** An x and a y coordinate, each in any unit. */
  datatype Position = Position(x: PdfUnit, y: PdfUnit)

  function XPt(p: Position): real {
    ToPoints(p.x)
  }

  function YPt(p: Position): real {
    ToPoints(p.y)
  }

  /** `Position.fromPoints(Float, Float)`. */
  function PositionFromPoints(x: real, y: real): (p: Position)
    ensures XPt(p) == x && YPt(p) == y
  {
    Position(Point(x), Point(y))
  }

  /** `Position.fromPoints(Int, Int)`. */
  function PositionFromIntPoints(x: int, y: int): (p: Position)
    ensures p == PositionFromPoints(x as real, y as real)
    ensures XPt(p) == x as real && YPt(p) == y as real
  {
    Position(Point(x as real), Point(y as real))
  }

  /** The origin. */
  const ZeroPosition: Position := Position(Point(0.0), Point(0.0))

  /** An axis-aligned rectangle given by its top-left corner and its size. */
  datatype Rect = Rect(position: Position, size: Size)

  function Left(r: Rect): real {
    XPt(r.position)
  }

  function Top(r: Rect): real {
    YPt(r.position)
  }

  function Right(r: Rect): real {
    XPt(r.position) + WidthPt(r.size)
  }

  function Bottom(r: Rect): real {
    YPt(r.position) + HeightPt(r.size)
  }

  function RectWidth(r: Rect): real {
    WidthPt(r.size)
  }

  function RectHeight(r: Rect): real {
    HeightPt(r.size)
  }

  /** `Rect.fromLTRB`: the rectangle with the given four edges. */
  function FromLTRB(left: real, top: real, right: real, bottom: real): (r: Rect)
    ensures Left(r) == left && Top(r) == top
    ensures Right(r) == right && Bottom(r) == bottom
  {
    Rect(PositionFromPoints(left, top), SizeFromPoints(right - left, bottom - top))
  }

  /** The empty rectangle at the origin. */
  const ZeroRect: Rect := Rect(ZeroPosition, ZeroSize)

  /** The derived edges of every rectangle agree with its extents. */
  lemma RectEdges(r: Rect)
    ensures Right(r) == Left(r) + RectWidth(r)
    ensures Bottom(r) == Top(r) + RectHeight(r)
    ensures Right(r) - Left(r) == RectWidth(r) && Bottom(r) - Top(r) == RectHeight(r)
  {
  }

  /** The ZERO constants have every coordinate and extent equal to zero, and
      equal the values the point factories build from zeros. */
  lemma ZeroConstants()
    ensures WidthPt(ZeroSize) == 0.0 && HeightPt(ZeroSize) == 0.0
    ensures XPt(ZeroPosition) == 0.0 && YPt(ZeroPosition) == 0.0
    ensures Left(ZeroRect) == 0.0 && Top(ZeroRect) == 0.0
    ensures Right(ZeroRect) == 0.0 && Bottom(ZeroRect) == 0.0
    ensures ZeroSize == SizeFromPoints(0.0, 0.0) && ZeroPosition == PositionFromPoints(0.0, 0.0)
    ensures ZeroRect == FromLTRB(0.0, 0.0, 0.0, 0.0)
  {
  }
}

=== FILE: Layout.dfy ===
/** Measurement constraints: a minimum and a maximum per axis, and the
    clamping of a proposed extent into them. */
module Layout {
  import opened Wrappers
  import opened Geometry

  /** An upper bound: a finite number, or +infinity. */
  datatype Bound = Finite(v: real) | Unbounded

  /** `x <= b`. */
  predicate Admits(b: Bound, x: real) {
    b.Unbounded? || x <= b.v
  }

  /** `Constraints(minWidth, maxWidth, minHeight, maxHeight)`. */
  datatype Constraints = Constraints(minWidth: real, maxWidth: Bound, minHeight: real, maxHeight: Bound)

  /** The invariant the constructor establishes: non-negative minima and
      maxima no smaller than the minima. */
  predicate Valid(c: Constraints) {
    && 0.0 <= c.minWidth && Admits(c.maxWidth, c.minWidth)
    && 0.0 <= c.minHeight && Admits(c.maxHeight, c.minHeight)
  }

  /** The four `require` checks of the constructor, in the order they run. */
  datatype ConstraintError =
    | MinWidthNegative
    | MaxWidthBelowMinWidth
    | MinHeightNegative
    | MaxHeightBelowMinHeight

  /** The constructor: the first failing check decides the error. */
  function NewConstraints(minWidth: real, maxWidth: Bound, minHeight: real, maxHeight: Bound)
    : (r: Result<Constraints, ConstraintError>)
    ensures r.Success? <==> Valid(Constraints(minWidth, maxWidth, minHeight, maxHeight))
    ensures r.Success? ==> r.value == Constraints(minWidth, maxWidth, minHeight, maxHeight)
    ensures minWidth < 0.0 ==> r == Failure(MinWidthNegative)
    ensures 0.0 <= minWidth && !Admits(maxWidth, minWidth) ==> r == Failure(MaxWidthBelowMinWidth)
    ensures 0.0 <= minWidth && Admits(maxWidth, minWidth) && minHeight < 0.0 ==> r == Failure(MinHeightNegative)
    ensures (0.0 <= minWidth && Admits(maxWidth, minWidth) && 0.0 <= minHeight && !Admits(maxHeight, minHeight))
              ==> r == Failure(MaxHeightBelowMinHeight)
  {
    if minWidth < 0.0 then Failure(MinWidthNegative)
    else if !Admits(maxWidth, minWidth) then Failure(MaxWidthBelowMinWidth)
    else if minHeight < 0.0 then Failure(MinHeightNegative)
    else if !Admits(maxHeight, minHeight) then Failure(MaxHeightBelowMinHeight)
    else Success(Constraints(minWidth, maxWidth, minHeight, maxHeight))
  }

  /** Kotlin's `coerceIn(lo, hi)` with an upper bound that may be infinite. */
  function CoerceIn(x: real, lo: real, hi: Bound): (r: real)
    requires Admits(hi, lo)
    ensures lo <= r && Admits(hi, r)
    ensures lo <= x && Admits(hi, x) ==> r == x
  {
    if x < lo then lo
    else if hi.Finite? && x > hi.v then hi.v
    else x
  }

  /** Clamping picks the point of `[lo, hi]` nearest to `x`. */
  lemma CoerceInNearest(x: real, lo: real, hi: Bound, y: real)
    requires Admits(hi, lo)
    requires lo <= y && Admits(hi, y)
    ensures Abs(CoerceIn(x, lo, hi) - x) <= Abs(y - x)
  {
  }

  function Abs(x: real): real {
    if x < 0.0 then -x else x
  }

  /** `constrainWidth`. */
  function ConstrainWidth(c: Constraints, width: real): (r: real)
    requires Valid(c)
    ensures c.minWidth <= r && Admits(c.maxWidth, r)
    ensures c.minWidth <= width && Admits(c.maxWidth, width) ==> r == width
  {
    CoerceIn(width, c.minWidth, c.maxWidth)
  }

  /** `constrainHeight`. */
  function ConstrainHeight(c: Constraints, height: real): (r: real)
    requires Valid(c)
    ensures c.minHeight <= r && Admits(c.maxHeight, r)
    ensures c.minHeight <= height && Admits(c.maxHeight, height) ==> r == height
  {
    CoerceIn(height, c.minHeight, c.maxHeight)
  }

  /** A size lies inside the constraints on both axes. */
  predicate Within(c: Constraints, s: Size) {
    && c.minWidth <= WidthPt(s) && Admits(c.maxWidth, WidthPt(s))
    && c.minHeight <= HeightPt(s) && Admits(c.maxHeight, HeightPt(s))
  }

  /** `constrain(size)`: a size in points, clamped on each axis. */
  function Constrain(c: Constraints, s: Size): (r: Size)
    requires Valid(c)
    ensures Within(c, r)
    ensures Within(c, s) ==> WidthPt(r) == WidthPt(s) && HeightPt(r) == HeightPt(s)
  {
    SizeFromPoints(ConstrainWidth(c, WidthPt(s)), ConstrainHeight(c, HeightPt(s)))
  }

  /** Clamping is idempotent on both axes. */
  lemma ConstrainIdempotent(c: Constraints, w: real, h: real, s: Size)
    requires Valid(c)
    ensures ConstrainWidth(c, ConstrainWidth(c, w)) == ConstrainWidth(c, w)
    ensures ConstrainHeight(c, ConstrainHeight(c, h)) == ConstrainHeight(c, h)
    ensures Constrain(c, Constrain(c, s)) == Constrain(c, s)
  {
  }

  /** `constrain` treats the axes independently: the clamped width depends
      only on the proposed width, and the clamped height only on the proposed height. */
  lemma ConstrainAxesIndependent(c: Constraints, s1: Size, s2: Size)
    requires Valid(c)
    ensures WidthPt(s1) == WidthPt(s2) ==> WidthPt(Constrain(c, s1)) == WidthPt(Constrain(c, s2))
    ensures HeightPt(s1) == HeightPt(s2) ==> HeightPt(Constrain(c, s1)) == HeightPt(Constrain(c, s2))
    ensures WidthPt(Constrain(c, s1)) == ConstrainWidth(c, WidthPt(s1))
    ensures HeightPt(Constrain(c, s1)) == ConstrainHeight(c, HeightPt(s1))
  {
  }

  /** `Constraints.fixed(width, height)`: both bounds of each axis equal. */
  function Fixed(width: real, height: real): (r: Result<Constraints, ConstraintError>)
    ensures r.Success? <==> 0.0 <= width && 0.0 <= height
    ensures r.Success? ==> r.value.minWidth == width && r.value.maxWidth == Finite(width)
    ensures r.Success? ==> r.value.minHeight == height && r.value.maxHeight == Finite(height)
  {
    NewConstraints(width, Finite(width), height, Finite(height))
  }

  /** Fixed constraints force every clamped extent to the fixed value. */
  lemma FixedForces(width: real, height: real, w: real, h: real)
    requires 0.0 <= width && 0.0 <= height
    ensures Fixed(width, height).Success?
    ensures ConstrainWidth(Fixed(width, height).value, w) == width
    ensures ConstrainHeight(Fixed(width, height).value, h) == height
  {
  }

  /** `Constraints.create` with its defaults: no minimum, no maximum. */
  function Create(minWidth: real := 0.0, maxWidth: Bound := Unbounded,
                  minHeight: real := 0.0, maxHeight: Bound := Unbounded)
    : (r: Result<Constraints, ConstraintError>)
    ensures r.Success? <==> Valid(Constraints(minWidth, maxWidth, minHeight, maxHeight))
    ensures r.Success? ==> r.value == Constraints(minWidth, maxWidth, minHeight, maxHeight)
  {
    NewConstraints(minWidth, maxWidth, minHeight, maxHeight)
  }

  /** `Constraints.DEFAULT`. */
  const Default: Constraints := Constraints(0.0, Unbounded, 0.0, Unbounded)

  /** `DEFAULT` is what `create()` builds; it is valid and only clamps
      negative extents up to zero. */
  lemma DefaultConstraints(w: real, h: real)
    ensures Create() == Success(Default)
    ensures Valid(Default)
    ensures ConstrainWidth(Default, w) == (if w < 0.0 then 0.0 else w)
    ensures ConstrainHeight(Default, h) == (if h < 0.0 then 0.0 else h)
  {
  }

  /** Constructing with a maximum below the minimum fails rather than clamping. */
  lemma InvalidConstraintsRejected(minWidth: real, maxWidth: real)
    requires 0.0 <= maxWidth < minWidth
    ensures NewConstraints(minWidth, Finite(maxWidth), 0.0, Unbounded) == Failure(MaxWidthBelowMinWidth)
    ensures Create(minWidth, Finite(maxWidth)).Failure?
  {
  }
}

=== FILE: Measurement.dfy ===
/** Size negotiation: every node reports the size it will occupy under
    given constraints. Leaves size themselves; a stack measures each child
    under its own incoming constraints, sums along its main axis, takes the
    largest extent across it, lets explicit modifier sizes override, and clamps. */
module Measurement {
  import opened Wrappers
  import opened Geometry
  import opened Layout
  import opened Modifiers
  import opened Nodes

  /** The main axis of a stack: vertical for a Column, horizontal for a Row. */
  datatype Axis = Vertical | Horizontal

  function AxisOf(n: Node): Axis
    requires IsContainer(n)
  {
    if n.Column? then Vertical else Horizontal
  }

  /** The extent of a size along an axis. */
  function MainExtent(s: Size, axis: Axis): real {
    if axis == Vertical then HeightPt(s) else WidthPt(s)
  }

  /** The extent of a size across an axis. */
  function CrossExtent(s: Size, axis: Axis): real {
    if axis == Vertical then WidthPt(s) else HeightPt(s)
  }

  function Max(a: real, b: real): real {
    if a < b then b else a
  }

  /** Sum of a sequence. */
  function Sum(xs: seq<real>): real
    decreases |xs|
  {
    if |xs| == 0 then 0.0 else xs[0] + Sum(xs[1..])
  }

  /** Appending an element adds it to the sum. */
  lemma {:induction false} SumSnoc(xs: seq<real>, x: real)
    ensures Sum(xs + [x]) == Sum(xs) + x
    decreases |xs|
  {
    if |xs| == 0 {
      assert [x][1..] == [];
    } else {
      assert (xs + [x])[1..] == xs[1..] + [x];
      SumSnoc(xs[1..], x);
    }
  }

  /** One more element of prefix adds that element to the sum. */
  lemma SumPrefixStep(xs: seq<real>, i: nat)
    requires i < |xs|
    ensures Sum(xs[..i + 1]) == Sum(xs[..i]) + xs[i]
  {
    assert xs[..i + 1] == xs[..i] + [xs[i]];
    SumSnoc(xs[..i], xs[i]);
  }

  /** With non-negative elements, a longer prefix never has a smaller sum. */
  lemma {:induction false} SumPrefixMonotone(xs: seq<real>, i: nat, j: nat)
    requires i <= j <= |xs|
    requires forall k :: 0 <= k < |xs| ==> 0.0 <= xs[k]
    ensures Sum(xs[..i]) <= Sum(xs[..j])
    decreases j - i
  {
    if i < j {
      assert xs[..j] == xs[..j - 1] + [xs[j - 1]];
      SumSnoc(xs[..j - 1], xs[j - 1]);
      SumPrefixMonotone(xs, i, j - 1);
    }
  }

  /** The largest element of a sequence, or 0 if every element is below 0 or
      there are none: the least non-negative upper bound. */
  function MaxOr0(xs: seq<real>): (m: real)
    ensures 0.0 <= m
    ensures forall i :: 0 <= i < |xs| ==> xs[i] <= m
    ensures m == 0.0 || exists i :: 0 <= i < |xs| && xs[i] == m
    decreases |xs|
  {
    if |xs| == 0 then 0.0
    else
      var rest := MaxOr0(xs[1..]);
      assert forall i :: 1 <= i < |xs| ==> xs[i] == xs[1..][i - 1];
      if xs[0] < rest then rest else xs[0]
  }

  /** Width factor of the text approximation: each character is 0.6 em wide. */
  const GlyphWidthFactor: real := 0.6

  /** Height factor of the text approximation: a line is 1.2 em high. */
  const LineHeightFactor: real := 1.2

  /** The width of a text run before clamping. */
  function TextIntrinsicWidth(text: string, fontSize: real): real {
    |text| as real * fontSize * GlyphWidthFactor
  }

  /** The height of a text run before clamping. */
  function TextIntrinsicHeight(fontSize: real): real {
    fontSize * LineHeightFactor
  }

  /** The stack accumulation loop: adds main extents to `total` and keeps the
      largest cross extent in `widest`, child by child. */
  function StackFold(sizes: seq<Size>, axis: Axis, total: real, widest: real): (real, real)
    decreases |sizes|
  {
    if |sizes| == 0 then (total, widest)
    else StackFold(sizes[1..], axis, total + MainExtent(sizes[0], axis), Max(widest, CrossExtent(sizes[0], axis)))
  }

  /** `measure(constraints)` for every kind of node. */
  function Measure(n: Node, c: Constraints): (r: Size)
    requires Valid(c)
    ensures Within(c, r)
    decreases n
  {
    match n
    case TextImpl(text, fontSize, _, _, _) =>
      SizeFromPoints(ConstrainWidth(c, TextIntrinsicWidth(text, fontSize)),
                     ConstrainHeight(c, TextIntrinsicHeight(fontSize)))
    case SpacerImpl(m) =>
      SizeFromPoints(ConstrainWidth(c, m.width.GetOr(0.0)), ConstrainHeight(c, m.height.GetOr(0.0)))
    case Column(m, ch) =>
      var acc := StackFold(seq(|ch|, i requires 0 <= i < |ch| => Measure(ch[i], c)), Vertical, 0.0, 0.0);
      SizeFromPoints(ConstrainWidth(c, m.width.GetOr(acc.1)), ConstrainHeight(c, m.height.GetOr(acc.0)))
    case Row(m, ch) =>
      var acc := StackFold(seq(|ch|, i requires 0 <= i < |ch| => Measure(ch[i], c)), Horizontal, 0.0, 0.0);
      SizeFromPoints(ConstrainWidth(c, m.width.GetOr(acc.0)), ConstrainHeight(c, m.height.GetOr(acc.1)))
  }

  /** `BasicMeasureScope.measure`: delegates to the node. */
  function ScopeMeasure(n: Node, c: Constraints): (r: Size)
    requires Valid(c)
    ensures Within(c, r)
  {
    Measure(n, c)
  }

  /** The measure scope adds nothing: it returns exactly what the node measures. */
  lemma ScopeMeasureDelegates(n: Node, c: Constraints)
    requires Valid(c)
    ensures ScopeMeasure(n, c) == Measure(n, c)
  {
  }

  /** The sizes of the children, each measured under the same constraints `c`. */
  function ChildSizes(ns: seq<Node>, c: Constraints): (r: seq<Size>)
    requires Valid(c)
    ensures |r| == |ns|
  {
    seq(|ns|, i requires 0 <= i < |ns| => Measure(ns[i], c))
  }

  function MainExtents(sizes: seq<Size>, axis: Axis): (r: seq<real>)
    ensures |r| == |sizes|
  {
    seq(|sizes|, i requires 0 <= i < |sizes| => MainExtent(sizes[i], axis))
  }

  function CrossExtents(sizes: seq<Size>, axis: Axis): (r: seq<real>)
    ensures |r| == |sizes|
  {
    seq(|sizes|, i requires 0 <= i < |sizes| => CrossExtent(sizes[i], axis))
  }

  /** The accumulation loop computes the sum of the main extents and the
      largest cross extent (or the start value, when that is larger). */
  lemma {:induction false} StackFoldIsSumAndMax(sizes: seq<Size>, axis: Axis, total: real, widest: real)
    requires 0.0 <= widest
    ensures StackFold(sizes, axis, total, widest).0 == total + Sum(MainExtents(sizes, axis))
    ensures StackFold(sizes, axis, total, widest).1 == Max(widest, MaxOr0(CrossExtents(sizes, axis)))
    decreases |sizes|
  {
    if |sizes| > 0 {
      var rest := sizes[1..];
      var ms, cs := MainExtents(sizes, axis), CrossExtents(sizes, axis);
      var total', widest' := total + MainExtent(sizes[0], axis), Max(widest, CrossExtent(sizes[0], axis));
      assert StackFold(sizes, axis, total, widest) == StackFold(rest, axis, total', widest');
      assert MainExtents(rest, axis) == ms[1..];
      assert CrossExtents(rest, axis) == cs[1..];
      StackFoldIsSumAndMax(rest, axis, total', widest');
      assert Sum(ms) == ms[0] + Sum(ms[1..]);
      assert MaxOr0(cs) == Max(cs[0], MaxOr0(cs[1..]));
      MaxAssoc(widest, cs[0], MaxOr0(cs[1..]));
    }
  }

  lemma MaxAssoc(a: real, b: real, c: real)
    ensures Max(Max(a, b), c) == Max(a, Max(b, c))
  {
  }

  /** A Column: the height is the clamped sum of the children's heights and
      the width the clamped largest child width (at least 0), every child
      measured under the column's own incoming constraints; an explicit
      modifier height or width replaces the accumulated value before clamping. */
  lemma ColumnMeasure(m: Modifier, ch: seq<Node>, c: Constraints)
    requires Valid(c)
    ensures HeightPt(Measure(Column(m, ch), c))
            == ConstrainHeight(c, m.height.GetOr(Sum(MainExtents(ChildSizes(ch, c), Vertical))))
    ensures WidthPt(Measure(Column(m, ch), c))
            == ConstrainWidth(c, m.width.GetOr(MaxOr0(CrossExtents(ChildSizes(ch, c), Vertical))))
  {
    StackFoldIsSumAndMax(ChildSizes(ch, c), Vertical, 0.0, 0.0);
  }

  /** A Row: the mirror image of a Column, summing widths and taking the
      largest height. */
  lemma RowMeasure(m: Modifier, ch: seq<Node>, c: Constraints)
    requires Valid(c)
    ensures WidthPt(Measure(Row(m, ch), c))
            == ConstrainWidth(c, m.width.GetOr(Sum(MainExtents(ChildSizes(ch, c), Horizontal))))
    ensures HeightPt(Measure(Row(m, ch), c))
            == ConstrainHeight(c, m.height.GetOr(MaxOr0(CrossExtents(ChildSizes(ch, c), Horizontal))))
  {
    StackFoldIsSumAndMax(ChildSizes(ch, c), Horizontal, 0.0, 0.0);
  }

  /** With explicit height and width on the modifier, a stack's size no
      longer depends on its children. */
  lemma ExplicitSizeOverrides(n1: Node, n2: Node, c: Constraints, w: real, h: real)
    requires Valid(c)
    requires IsContainer(n1) && IsContainer(n2)
    requires n1.modifier.width == Some(w) && n1.modifier.height == Some(h)
    requires n2.modifier.width == Some(w) && n2.modifier.height == Some(h)
    ensures Measure(n1, c) == Measure(n2, c)
    ensures WidthPt(Measure(n1, c)) == ConstrainWidth(c, w) && HeightPt(Measure(n1, c)) == ConstrainHeight(c, h)
  {
  }

  /** An empty stack measures as the clamped zero size, unless its modifier
      gives an explicit extent. */
  lemma EmptyStackMeasure(n: Node, c: Constraints)
    requires Valid(c)
    requires IsContainer(n) && n.children == []
    ensures Measure(n, c) == Constrain(c, SizeFromPoints(n.modifier.width.GetOr(0.0), n.modifier.height.GetOr(0.0)))
    ensures n.modifier == ModifierNone ==> Measure(n, c) == Constrain(c, ZeroSize)
  {
  }

  /** A text run measures `(len * fontSize * 0.6, fontSize * 1.2)`, clamped. */
  lemma TextMeasure(n: Node, c: Constraints)
    requires Valid(c) && n.TextImpl?
    ensures WidthPt(Measure(n, c)) == ConstrainWidth(c, |n.text| as real * n.fontSize * 0.6)
    ensures HeightPt(Measure(n, c)) == ConstrainHeight(c, n.fontSize * 1.2)
  {
    var w, h := TextIntrinsicWidth(n.text, n.fontSize), TextIntrinsicHeight(n.fontSize);
    assert w == |n.text| as real * n.fontSize * 0.6 && h == n.fontSize * 1.2;
    assert Measure(n, c) == SizeFromPoints(ConstrainWidth(c, w), ConstrainHeight(c, h));
  }

  /** The height of a text run does not depend on its content; an empty run
      has zero intrinsic width; each extra character widens it by `fontSize * 0.6`. */
  lemma TextIntrinsicSize(s1: string, s2: string, ch: char, fontSize: real, c: Constraints)
    requires Valid(c)
    ensures HeightPt(Measure(Text(s1, fontSize), c)) == HeightPt(Measure(Text(s2, fontSize), c))
    ensures TextIntrinsicWidth("", fontSize) == 0.0
    ensures WidthPt(Measure(Text("", fontSize), Default)) == 0.0
    ensures TextIntrinsicWidth(s1 + [ch], fontSize) == TextIntrinsicWidth(s1, fontSize) + fontSize * 0.6
  {
    assert |s1 + [ch]| == |s1| + 1;
  }

  /** A spacer measures its modifier's width and height, 0 where absent, clamped. */
  lemma SpacerMeasure(m: Modifier, c: Constraints, h: real)
    requires Valid(c)
    ensures WidthPt(Measure(Spacer(m), c)) == ConstrainWidth(c, m.width.GetOr(0.0))
    ensures HeightPt(Measure(Spacer(m), c)) == ConstrainHeight(c, m.height.GetOr(0.0))
    ensures Measure(Spacer(ModifierNone), Default) == ZeroSize
    ensures 0.0 <= h ==> Measure(Spacer(WithHeight(ModifierNone, h)), Default) == SizeFromPoints(0.0, h)
  {
  }
}

=== FILE: Modifiers.dfy ===
/** Layout hints attached to spacers and containers: an explicit height, an
    explicit width and padding, each optional. Every setter returns a new value. */
module Modifiers {
  import opened Wrappers

  /** Padding on the four sides, in points. */
  datatype Padding = Padding(left: real := 0.0, top: real := 0.0, right: real := 0.0, bottom: real := 0.0)

  /** `Padding()`: every side defaults to zero. */
  const NoPadding: Padding := Padding()

  /** `Padding.all(a)`. */
  function PaddingAll(all: real): (p: Padding)
    ensures p.left == all && p.top == all && p.right == all && p.bottom == all
  {
    Padding(all, all, all, all)
  }

  /** `Modifier`: absent fields are `None`. */
  datatype Modifier = Modifier(height: Option<real>, width: Option<real>, padding: Option<Padding>)

  /** `Modifier.None`: no hints at all. */
  const ModifierNone: Modifier := Modifier(None, None, None)

  /** `Modifier.height(h)`. */
  function WithHeight(m: Modifier, height: real): (r: Modifier)
    ensures r.height == Some(height)
    ensures r.width == m.width && r.padding == m.padding
  {
    Modifier(Some(height), m.width, m.padding)
  }

  /** `Modifier.width(w)`. */
  function WithWidth(m: Modifier, width: real): (r: Modifier)
    ensures r.width == Some(width)
    ensures r.height == m.height && r.padding == m.padding
  {
    Modifier(m.height, Some(width), m.padding)
  }

  /** `Modifier.padding(p)`. */
  function WithPadding(m: Modifier, padding: Padding): (r: Modifier)
    ensures r.padding == Some(padding)
    ensures r.height == m.height && r.width == m.width
  {
    Modifier(m.height, m.width, Some(padding))
  }

  /** Setters on different fields commute; on the same field the last call wins. */
  lemma SettersCommuteAndOverwrite(m: Modifier, h: real, h': real, w: real, w': real, p: Padding, p': Padding)
    ensures WithWidth(WithHeight(m, h), w) == WithHeight(WithWidth(m, w), h)
    ensures WithPadding(WithHeight(m, h), p) == WithHeight(WithPadding(m, p), h)
    ensures WithPadding(WithWidth(m, w), p) == WithWidth(WithPadding(m, p), w)
    ensures WithHeight(WithHeight(m, h), h') == WithHeight(m, h')
    ensures WithWidth(WithWidth(m, w), w') == WithWidth(m, w')
    ensures WithPadding(WithPadding(m, p), p') == WithPadding(m, p')
  {
  }

  /** `Modifier.None` has every hint absent, and `Padding()` is `Padding.all(0)`. */
  lemma Defaults()
    ensures ModifierNone.height.None? && ModifierNone.width.None? && ModifierNone.padding.None?
    ensures Padding() == PaddingAll(0.0) && NoPadding == Padding()
    ensures Padding(top := 4.0) == Padding(0.0, 4.0, 0.0, 0.0)
  {
  }

  /** `Float.dp`: a density-independent pixel is 1.5 points. */
  function Dp(x: real): (r: real)
    ensures x > 0.0 ==> r > x
    ensures x == 0.0 ==> r == 0.0
  {
    x * 1.5
  }

  /** `Float.sp`: a scaled pixel is one point. */
  function Sp(x: real): (r: real)
    ensures Dp(x) == 1.5 * r
  {
    x
  }

  /** `dp` scales linearly by 1.5. */
  lemma DpLinear(a: real, b: real)
    ensures Dp(a + b) == Dp(a) + Dp(b)
    ensures Dp(1.0) == 1.5
    ensures Dp(a) == 1.5 * Sp(a)
  {
  }
}

=== FILE: Nodes.dfy ===
/** The scene tree: the closed set of layout participants, their factories
    and builder scopes, and the listing of every node of a tree. */
module Nodes {
  import opened Style
  import opened Modifiers

  /** A layout participant. The constructors carry the Kotlin class names. */
  datatype Node =
    | TextImpl(text: string, fontSize: real, fontFamily: string, fontWeight: FontWeight, color: Color)
    | SpacerImpl(modifier: Modifier)
    | Column(modifier: Modifier, children: seq<Node>)
    | Row(modifier: Modifier, children: seq<Node>)

  predicate IsContainer(n: Node) {
    n.Column? || n.Row?
  }

  /** The children of a container; a leaf has none. */
  function Children(n: Node): (ch: seq<Node>)
    ensures IsContainer(n) ==> ch == n.children
    ensures !IsContainer(n) ==> ch == []
  {
    match n
    case Column(_, ch) => ch
    case Row(_, ch) => ch
    case _ => []
  }

  /** `text(...)` and `Text(...)`: a text node holding exactly the given
      fields, with font size 12, Helvetica, normal weight and black by default. */
  function Text(text: string, fontSize: real := 12.0, fontFamily: string := "Helvetica",
                fontWeight: FontWeight := Normal, color: Color := Black): (n: Node)
    ensures n.TextImpl?
    ensures n.text == text && n.fontSize == fontSize && n.fontFamily == fontFamily
    ensures n.fontWeight == fontWeight && n.color == color
  {
    TextImpl(text, fontSize, fontFamily, fontWeight, color)
  }

  /** The factory defaults. */
  lemma TextDefaults(s: string)
    ensures Text(s) == TextImpl(s, 12.0, "Helvetica", Normal, Color(0, 0, 0, 255))
  {
    NamedColors();
  }

  /** `Spacer(modifier)`: wraps the modifier unchanged. */
  function Spacer(modifier: Modifier := ModifierNone): (n: Node)
    ensures n.SpacerImpl? && n.modifier == modifier
  {
    SpacerImpl(modifier)
  }

  /** `ColumnScope.add`: appends one child at the end. */
  function ColumnAdd(column: Node, child: Node): (r: Node)
    requires column.Column?
    ensures r.Column? && r.modifier == column.modifier
    ensures |r.children| == |column.children| + 1
    ensures r.children[..|column.children|] == column.children
    ensures r.children[|column.children|] == child
  {
    Column(column.modifier, column.children + [child])
  }

  /** `RowScope.add`: appends one child at the end. */
  function RowAdd(row: Node, child: Node): (r: Node)
    requires row.Row?
    ensures r.Row? && r.modifier == row.modifier
    ensures |r.children| == |row.children| + 1
    ensures r.children[..|row.children|] == row.children
    ensures r.children[|row.children|] == child
  {
    Row(row.modifier, row.children + [child])
  }

  /** The `Column(modifier) { ... }` builder: an empty column to which the
      content block adds `contents`, one `add` at a time. */
  function BuildColumn(modifier: Modifier := ModifierNone, contents: seq<Node> := []): (r: Node)
    ensures r == Column(modifier, contents)
    decreases |contents|
  {
    if |contents| == 0 then Column(modifier, [])
    else ColumnAdd(BuildColumn(modifier, contents[..|contents| - 1]), contents[|contents| - 1])
  }

  /** The `Row(modifier) { ... }` builder. */
  function BuildRow(modifier: Modifier := ModifierNone, contents: seq<Node> := []): (r: Node)
    ensures r == Row(modifier, contents)
    decreases |contents|
  {
    if |contents| == 0 then Row(modifier, [])
    else RowAdd(BuildRow(modifier, contents[..|contents| - 1]), contents[|contents| - 1])
  }

  /** Every node of a tree, the root first, then each child's subtree in order. */
  function Subtrees(n: Node): seq<Node>
    decreases n
  {
    match n
    case Column(_, ch) => [n] + Forest(ch)
    case Row(_, ch) => [n] + Forest(ch)
    case _ => [n]
  }

  /** Every node of each tree of a sequence, tree after tree. */
  function Forest(ns: seq<Node>): seq<Node>
    decreases ns
  {
    if |ns| == 0 then [] else Subtrees(ns[0]) + Forest(ns[1..])
  }

  /** The listing of a concatenation is the concatenation of the listings. */
  lemma {:induction false} ForestAppend(a: seq<Node>, b: seq<Node>)
    ensures Forest(a + b) == Forest(a) + Forest(b)
    decreases |a|
  {
    if |a| == 0 {
      assert a + b == b;
    } else {
      assert (a + b)[1..] == a[1..] + b;
      ForestAppend(a[1..], b);
    }
  }
}

=== FILE: Placement.dfy ===
/** One level of placement: a stack gives each child an absolute position by
    walking the children in order and advancing along its main axis by each
    child's size under the default constraints. Only left and top padding
    are honoured. */
module Placement {
  import opened Wrappers
  import opened Geometry
  import opened Layout
  import opened Modifiers
  import opened Nodes
  import opened Measurement

  /** A node paired with its absolute position, `Pair<Measurable, Position>`. */
  datatype Entry = Entry(node: Node, position: Position)

  /** The nodes of a sequence of entries. */
  function NodesOf(es: seq<Entry>): (r: seq<Node>)
    ensures |r| == |es|
    ensures forall i :: 0 <= i < |es| ==> r[i] == es[i].node
  {
    seq(|es|, i requires 0 <= i < |es| => es[i].node)
  }

  /** The nodes of a concatenation are the concatenation of the nodes. */
  lemma NodesOfAppend(a: seq<Entry>, b: seq<Entry>)
    ensures NodesOf(a + b) == NodesOf(a) + NodesOf(b)
  {
  }

  /** `modifier.padding?.left ?: 0`. */
  function PaddingLeft(m: Modifier): real {
    if m.padding.Some? then m.padding.value.left else 0.0
  }

  /** `modifier.padding?.top ?: 0`. */
  function PaddingTop(m: Modifier): real {
    if m.padding.Some? then m.padding.value.top else 0.0
  }

  /** The coordinate of a position along an axis. */
  function MainCoord(p: Position, axis: Axis): real {
    if axis == Vertical then YPt(p) else XPt(p)
  }

  /** The coordinate of a position across an axis. */
  function CrossCoord(p: Position, axis: Axis): real {
    if axis == Vertical then XPt(p) else YPt(p)
  }

  /** The point-valued position with the given coordinates along and across an axis. */
  function At(axis: Axis, main: real, cross: real): (p: Position)
    ensures MainCoord(p, axis) == main && CrossCoord(p, axis) == cross
  {
    if axis == Vertical then PositionFromPoints(cross, main) else PositionFromPoints(main, cross)
  }

  /** The main-axis extents of the children under `Constraints.DEFAULT`. */
  function DefaultExtents(ns: seq<Node>, axis: Axis): (r: seq<real>)
    ensures |r| == |ns|
    ensures forall i :: 0 <= i < |ns| ==> 0.0 <= r[i]
  {
    seq(|ns|, i requires 0 <= i < |ns| => MainExtent(Measure(ns[i], Default), axis))
  }

  /** The placement loop from a starting point: each child gets an entry
      at the current point, which then moves along the axis by that child's
      extent under `Constraints.DEFAULT`. */
  function PlaceAlong(ns: seq<Node>, axis: Axis, main: real, cross: real): (r: seq<Entry>)
    ensures |r| == |ns|
    decreases |ns|
  {
    if |ns| == 0 then []
    else
      var e := MainExtent(Measure(ns[0], Default), axis);
      [Entry(ns[0], At(axis, main, cross))] + PlaceAlong(ns[1..], axis, main + e, cross)
  }

  /** The placement loop gives one entry per child, in the children's order. */
  lemma {:induction false} PlaceAlongNodes(ns: seq<Node>, axis: Axis, main: real, cross: real)
    ensures NodesOf(PlaceAlong(ns, axis, main, cross)) == ns
    decreases |ns|
  {
    if |ns| > 0 {
      var e := MainExtent(Measure(ns[0], Default), axis);
      var rest := PlaceAlong(ns[1..], axis, main + e, cross);
      PlaceAlongNodes(ns[1..], axis, main + e, cross);
      NodesOfAppend([Entry(ns[0], At(axis, main, cross))], rest);
      assert ns == [ns[0]] + ns[1..];
    }
  }

  /** Closed form of the placement loop: child `i` sits at the start plus
      the default-constraint extents of the children before it, and every
      child at the same cross coordinate. */
  lemma {:induction false} PlaceAlongCoords(ns: seq<Node>, axis: Axis, main: real, cross: real)
    ensures var r := PlaceAlong(ns, axis, main, cross);
      && (forall i :: 0 <= i < |r| ==> CrossCoord(r[i].position, axis) == cross)
      && (forall i :: 0 <= i < |r| ==> MainCoord(r[i].position, axis) == main + Sum(DefaultExtents(ns, axis)[..i]))
    decreases |ns|
  {
    if |ns| > 0 {
      var e := MainExtent(Measure(ns[0], Default), axis);
      var rest := PlaceAlong(ns[1..], axis, main + e, cross);
      var r := PlaceAlong(ns, axis, main, cross);
      assert r == [Entry(ns[0], At(axis, main, cross))] + rest;
      PlaceAlongCoords(ns[1..], axis, main + e, cross);
      forall i | 0 <= i < |r|
        ensures CrossCoord(r[i].position, axis) == cross
        ensures MainCoord(r[i].position, axis) == main + Sum(DefaultExtents(ns, axis)[..i])
      {
        if i == 0 {
          assert DefaultExtents(ns, axis)[..0] == [];
        } else {
          assert r[i] == rest[i - 1];
          ExtentsPrefix(ns, axis, i);
        }
      }
    }
  }

  /** The extents before child `i` are the first child's extent followed by
      the extents of the remaining children before it. */
  lemma ExtentsPrefix(ns: seq<Node>, axis: Axis, i: nat)
    requires 1 <= i <= |ns|
    ensures Sum(DefaultExtents(ns, axis)[..i])
         == MainExtent(Measure(ns[0], Default), axis) + Sum(DefaultExtents(ns[1..], axis)[..i - 1])
  {
    var xs := DefaultExtents(ns, axis)[..i];
    assert xs[0] == MainExtent(Measure(ns[0], Default), axis);
    assert xs[1..] == DefaultExtents(ns[1..], axis)[..i - 1];
  }

  /** `placeChildren(position)` of a Column or a Row: the children start at
      the stack's position moved right by the left padding and down by the
      top padding. */
  function PlaceChildren(n: Node, position: Position): (r: seq<Entry>)
    requires IsContainer(n)
    ensures |r| == |n.children|
  {
    var axis := AxisOf(n);
    var start := PositionFromPoints(XPt(position) + PaddingLeft(n.modifier), YPt(position) + PaddingTop(n.modifier));
    PlaceAlong(n.children, axis, MainCoord(start, axis), CrossCoord(start, axis))
  }
  /** A stack places exactly its children, in order. */
  lemma PlaceChildrenNodes(n: Node, position: Position)
    requires IsContainer(n)
    ensures NodesOf(PlaceChildren(n, position)) == n.children
  {
    var axis := AxisOf(n);
    var start := PositionFromPoints(XPt(position) + PaddingLeft(n.modifier), YPt(position) + PaddingTop(n.modifier));
    PlaceAlongNodes(n.children, axis, MainCoord(start, axis), CrossCoord(start, axis));
  }

  /** Along the main axis child `i + 1` follows child `i` by that child's
      extent under the default constraints. */
  lemma PlaceAlongStep(ns: seq<Node>, axis: Axis, main: real, cross: real, i: nat)
    requires i + 1 < |ns|
    ensures MainCoord(PlaceAlong(ns, axis, main, cross)[i + 1].position, axis)
         == MainCoord(PlaceAlong(ns, axis, main, cross)[i].position, axis) + MainExtent(Measure(ns[i], Default), axis)
  {
    PlaceAlongCoords(ns, axis, main, cross);
    SumPrefixStep(DefaultExtents(ns, axis), i);
  }

  /** Main-axis coordinates never decrease from one child to a later one. */
  lemma PlaceAlongMonotone(ns: seq<Node>, axis: Axis, main: real, cross: real, i: nat, j: nat)
    requires i <= j < |ns|
    ensures MainCoord(PlaceAlong(ns, axis, main, cross)[i].position, axis)
         <= MainCoord(PlaceAlong(ns, axis, main, cross)[j].position, axis)
  {
    PlaceAlongCoords(ns, axis, main, cross);
    SumPrefixMonotone(DefaultExtents(ns, axis), i, j);
  }

  /** Column placement: every child at `x + paddingLeft`; the first at
      `y + paddingTop`; each next one below the previous by the previous
      child's height under the default constraints; y never decreases. */
  lemma ColumnPlacement(m: Modifier, ch: seq<Node>, position: Position)
    ensures var r := PlaceChildren(Column(m, ch), position);
      && |r| == |ch|
      && (forall i :: 0 <= i < |r| ==> r[i].node == ch[i])
      && (forall i :: 0 <= i < |r| ==> XPt(r[i].position) == XPt(position) + PaddingLeft(m))
      && (|r| > 0 ==> YPt(r[0].position) == YPt(position) + PaddingTop(m))
      && (forall i :: 0 <= i < |r| - 1 ==>
            YPt(r[i + 1].position) == YPt(r[i].position) + HeightPt(Measure(ch[i], Default)))
      && (forall i, j :: 0 <= i <= j < |r| ==> YPt(r[i].position) <= YPt(r[j].position))
  {
    var main, cross := YPt(position) + PaddingTop(m), XPt(position) + PaddingLeft(m);
    var r := PlaceChildren(Column(m, ch), position);
    assert r == PlaceAlong(ch, Vertical, main, cross);
    PlaceAlongCoords(ch, Vertical, main, cross);
    PlaceAlongNodes(ch, Vertical, main, cross);
    assert |r| > 0 ==> DefaultExtents(ch, Vertical)[..0] == [];
    forall i | 0 <= i < |r| - 1
      ensures YPt(r[i + 1].position) == YPt(r[i].position) + HeightPt(Measure(ch[i], Default))
    {
      PlaceAlongStep(ch, Vertical, main, cross, i);
    }
    forall i, j | 0 <= i <= j < |r|
      ensures YPt(r[i].position) <= YPt(r[j].position)
    {
      PlaceAlongMonotone(ch, Vertical, main, cross, i, j);
    }
  }

  /** Row placement: every child at `y + paddingTop`; the first at
      `x + paddingLeft`; each next one right of the previous by the previous
      child's width under the default constraints; x never decreases. */
  lemma RowPlacement(m: Modifier, ch: seq<Node>, position: Position)
    ensures var r := PlaceChildren(Row(m, ch), position);
      && |r| == |ch|
      && (forall i :: 0 <= i < |r| ==> r[i].node == ch[i])
      && (forall i :: 0 <= i < |r| ==> YPt(r[i].position) == YPt(position) + PaddingTop(m))
      && (|r| > 0 ==> XPt(r[0].position) == XPt(position) + PaddingLeft(m))
      && (forall i :: 0 <= i < |r| - 1 ==>
            XPt(r[i + 1].position) == XPt(r[i].position) + WidthPt(Measure(ch[i], Default)))
      && (forall i, j :: 0 <= i <= j < |r| ==> XPt(r[i].position) <= XPt(r[j].position))
  {
    var main, cross := XPt(position) + PaddingLeft(m), YPt(position) + PaddingTop(m);
    var r := PlaceChildren(Row(m, ch), position);
    assert r == PlaceAlong(ch, Horizontal, main, cross);
    PlaceAlongCoords(ch, Horizontal, main, cross);
    PlaceAlongNodes(ch, Horizontal, main, cross);
    assert |r| > 0 ==> DefaultExtents(ch, Horizontal)[..0] == [];
    forall i | 0 <= i < |r| - 1
      ensures XPt(r[i + 1].position) == XPt(r[i].position) + WidthPt(Measure(ch[i], Default))
    {
      PlaceAlongStep(ch, Horizontal, main, cross, i);
    }
    forall i, j | 0 <= i <= j < |r|
      ensures XPt(r[i].position) <= XPt(r[j].position)
    {
      PlaceAlongMonotone(ch, Horizontal, main, cross, i, j);
    }
  }

  /** Right and bottom padding never affect placement: two stacks whose
      padding agrees on the left and top edges place their children identically,
      and a padding of zero on those edges places like no padding at all. */
  lemma TrailingPaddingIgnored(n: Node, p1: Padding, p2: Padding, position: Position)
    requires IsContainer(n)
    requires p1.left == p2.left && p1.top == p2.top
    ensures PlaceChildren(n.(modifier := WithPadding(n.modifier, p1)), position)
         == PlaceChildren(n.(modifier := WithPadding(n.modifier, p2)), position)
    ensures (p1.left == 0.0 && p1.top == 0.0) ==>
              (PlaceChildren(n.(modifier := WithPadding(n.modifier, p1)), position)
               == PlaceChildren(n.(modifier := n.modifier.(padding := None)), position))
  {
  }
}

=== FILE: Render.dfy ===
/** The render-dispatch boundary: every flattened text entry becomes one
    abstract draw command; spacers and stacks draw nothing. The PDF writer
    that executes the commands is outside the model. */
module Render {
  import opened Geometry
  import opened Style
  import opened Nodes
  import opened Placement
  import opened Flattening
  import opened Expansion

  /** The two standard fonts the renderer selects from. */
  datatype Font = Helvetica | HelveticaBold

  /** Bold selects Helvetica Bold; every other weight selects Helvetica. */
  function FontFor(w: FontWeight): (f: Font)
    ensures f == HelveticaBold <==> w == Bold
  {
    match w
    case Bold => HelveticaBold
    case Light => Helvetica
    case Medium => Helvetica
    case _ => Helvetica
  }

  /** "Show this text with this font, size and colour at (x, y)", with y
      measured upwards from the bottom of the page. */
  datatype DrawCommand = DrawText(text: string, font: Font, fontSize: real, color: Color, x: real, y: real)

  /** `renderComponent` for one flattened entry. */
  function RenderEntry(e: Entry, pageHeight: real): (r: seq<DrawCommand>)
    ensures e.node.TextImpl? ==> |r| == 1
    ensures e.node.TextImpl? ==> r[0].text == e.node.text && r[0].fontSize == e.node.fontSize
    ensures e.node.TextImpl? ==> r[0].color == e.node.color && r[0].font == FontFor(e.node.fontWeight)
    ensures e.node.TextImpl? ==> r[0].x == XPt(e.position) && r[0].y + YPt(e.position) == pageHeight
    ensures !e.node.TextImpl? ==> r == []
  {
    match e.node
    case TextImpl(text, fontSize, _, fontWeight, color) =>
      [DrawText(text, FontFor(fontWeight), fontSize, color, XPt(e.position), pageHeight - YPt(e.position))]
    case SpacerImpl(_) => []
    case Column(_, _) => []
    case Row(_, _) => []
  }

  /** The draw commands of a flattened sequence, entry after entry. */
  function RenderAll(es: seq<Entry>, pageHeight: real): seq<DrawCommand>
    decreases |es|
  {
    if |es| == 0 then [] else RenderEntry(es[0], pageHeight) + RenderAll(es[1..], pageHeight)
  }

  /** The number of text nodes in a sequence of nodes. */
  function CountTexts(ns: seq<Node>): nat
    decreases |ns|
  {
    if |ns| == 0 then 0 else (if ns[0].TextImpl? then 1 else 0) + CountTexts(ns[1..])
  }

  /** Rendering preserves order: the commands of a concatenation are the
      commands of each part, one after the other. */
  lemma {:induction false} RenderAllAppend(a: seq<Entry>, b: seq<Entry>, pageHeight: real)
    ensures RenderAll(a + b, pageHeight) == RenderAll(a, pageHeight) + RenderAll(b, pageHeight)
    decreases |a|
  {
    if |a| > 0 {
      assert (a + b)[1..] == a[1..] + b;
      RenderAllAppend(a[1..], b, pageHeight);
    } else {
      assert a + b == b;
    }
  }

  lemma {:induction false} CountTextsAppend(a: seq<Node>, b: seq<Node>)
    ensures CountTexts(a + b) == CountTexts(a) + CountTexts(b)
    decreases |a|
  {
    if |a| > 0 {
      assert (a + b)[1..] == a[1..] + b;
      CountTextsAppend(a[1..], b);
    } else {
      assert a + b == b;
    }
  }

  /** Exactly one command per text entry, none for anything else. */
  lemma {:induction false} RenderAllCount(es: seq<Entry>, pageHeight: real)
    ensures |RenderAll(es, pageHeight)| == CountTexts(NodesOf(es))
    decreases |es|
  {
    if |es| > 0 {
      assert NodesOf(es)[1..] == NodesOf(es[1..]);
      RenderAllCount(es[1..], pageHeight);
    }
  }

  /** The text entry at index `i` draws the command right after those of the
      text entries before it. */
  lemma {:induction false} RenderAllAt(es: seq<Entry>, pageHeight: real, i: nat)
    requires i < |es| && es[i].node.TextImpl?
    ensures CountTexts(NodesOf(es[..i])) < |RenderAll(es, pageHeight)|
    ensures RenderAll(es, pageHeight)[CountTexts(NodesOf(es[..i]))] == RenderEntry(es[i], pageHeight)[0]
  {
    assert es == es[..i] + [es[i]] + es[i + 1..];
    RenderAllAppend(es[..i] + [es[i]], es[i + 1..], pageHeight);
    RenderAllAppend(es[..i], [es[i]], pageHeight);
    RenderAllCount(es[..i], pageHeight);
    assert RenderAll([es[i]], pageHeight) == RenderEntry(es[i], pageHeight) + RenderAll([], pageHeight);
  }

  /** Nodes that are a permutation of each other hold as many text nodes. */
  lemma {:induction false} CountTextsPermutation(a: seq<Node>, b: seq<Node>)
    requires multiset(a) == multiset(b)
    ensures CountTexts(a) == CountTexts(b)
    decreases |a|
  {
    if |a| == 0 {
      assert |b| == |multiset(b)| == 0;
    } else {
      var x := a[0];
      assert x in multiset(b);
      var k :| 0 <= k < |b| && b[k] == x;
      var b' := b[..k] + b[k + 1..];
      MultisetRemoveAt(b, k);
      assert a == [x] + a[1..];
      MultisetCancel(x, multiset(a[1..]), multiset(b'));
      CountTextsPermutation(a[1..], b');
      CountTextsRemoveAt(b, k);
    }
  }

  lemma MultisetRemoveAt<T>(b: seq<T>, k: nat)
    requires k < |b|
    ensures multiset(b) == multiset{b[k]} + multiset(b[..k] + b[k + 1..])
  {
    assert b == b[..k] + [b[k]] + b[k + 1..];
  }

  lemma MultisetCancel<T>(x: T, m1: multiset<T>, m2: multiset<T>)
    requires multiset{x} + m1 == multiset{x} + m2
    ensures m1 == m2
  {
    assert m1 == (multiset{x} + m1) - multiset{x};
  }

  /** Taking the node at index `k` out of a sequence takes its count out. */
  lemma CountTextsRemoveAt(b: seq<Node>, k: nat)
    requires k < |b|
    ensures CountTexts(b) == CountTexts([b[k]]) + CountTexts(b[..k] + b[k + 1..])
  {
    SplitAt(b, k);
    CountTextsMiddle(b[..k], b[k], b[k + 1..]);
  }

  lemma SplitAt<T>(b: seq<T>, k: nat)
    requires k < |b|
    ensures b == b[..k] + [b[k]] + b[k + 1..]
  {
  }

  lemma CountTextsMiddle(front: seq<Node>, x: Node, back: seq<Node>)
    ensures CountTexts(front + [x] + back) == CountTexts([x]) + CountTexts(front + back)
  {
    CountTextsAppend(front + [x], back);
    CountTextsAppend(front, [x]);
    CountTextsAppend(front, back);
  }

  /** The render pass of `renderToPdf`: every entry in order. */
  method RenderEntries(flat: seq<Entry>, pageHeight: real) returns (commands: seq<DrawCommand>)
    ensures commands == RenderAll(flat, pageHeight)
    ensures |commands| == CountTexts(NodesOf(flat))
  {
    commands := [];
    var i := 0;
    while i < |flat|
      invariant 0 <= i <= |flat|
      invariant commands == RenderAll(flat[..i], pageHeight)
    {
      RenderAllAppend(flat[..i], [flat[i]], pageHeight);
      assert flat[..i + 1] == flat[..i] + [flat[i]];
      assert RenderAll([flat[i]], pageHeight) == RenderEntry(flat[i], pageHeight) + RenderAll([], pageHeight);
      commands := commands + RenderEntry(flat[i], pageHeight);
      i := i + 1;
    }
    assert flat[..|flat|] == flat;
    RenderAllCount(flat, pageHeight);
  }

  /** `renderToPdf`: flatten the scene, then render every flattened entry in
      that order. The command count equals the number of text nodes anywhere
      in the scene. */
  method RenderToPdf(s: Scope, pageHeight: real) returns (flat: seq<Entry>, commands: seq<DrawCommand>)
    ensures multiset(NodesOf(flat)) == multiset(Forest(NodesOf(s.roots)))
    ensures |flat| == |Forest(NodesOf(s.roots))|
    ensures |s.roots| <= |flat| && flat[..|s.roots|] == s.roots
    ensures flat[|s.roots|..] == ExpandAll(Expand, flat)
    ensures forall i :: 0 <= i < |flat| ==> i < |s.roots| + |ExpandAll(Expand, flat[..i])|
    ensures commands == RenderAll(flat, pageHeight)
    ensures |commands| == CountTexts(Forest(NodesOf(s.roots)))
  {
    flat := Flatten(s.roots);
    commands := RenderEntries(flat, pageHeight);
    CountTextsPermutation(NodesOf(flat), Forest(NodesOf(s.roots)));
  }

  /** The document of the library's generation test (PdfGenerationTest.kt,
      lines 20-31): one bold blue "Hello, PDF!" of size 24 added at (72, 72)
      yields exactly one command, in Helvetica Bold, drawn 72 points below
      the top of the page. */
  method HelloPdf(pageHeight: real) returns (commands: seq<DrawCommand>)
    ensures commands == [DrawText("Hello, PDF!", HelveticaBold, 24.0, Color(0, 0, 255, 255), 72.0, pageHeight - 72.0)]
  {
    var root := Entry(Text("Hello, PDF!", 24.0, fontWeight := Bold, color := Blue), PositionFromPoints(72.0, 72.0));
    NamedColors();
    assert RenderAll([root], pageHeight) == [DrawText("Hello, PDF!", HelveticaBold, 24.0, Color(0, 0, 255, 255), 72.0, pageHeight - 72.0)];
    var scope := Add(EmptyScope, root.node, root.position);
    assert scope.roots == [root];
    assert Forest(NodesOf(scope.roots)) == [root.node] by {
      assert NodesOf(scope.roots) == [root.node];
      assert Subtrees(root.node) == [root.node];
    }
    var flat;
    flat, commands := RenderToPdf(scope, pageHeight);
    assert flat == [root];
  }
}

=== FILE: Style.dfy ===
/** Text styling: font weights and RGBA colours with validated channels. */
module Style {
  import opened Wrappers

  datatype FontWeight = Normal | Bold | Light | Medium

  /** `Color(red, green, blue, alpha)`; only values that passed `NewColor` exist in the library. */
  datatype Color = Color(red: int, green: int, blue: int, alpha: int)

  /** The colour `init` block's checks, in the order they run. */
  datatype ColorError = RedOutOfRange | GreenOutOfRange | BlueOutOfRange | AlphaOutOfRange

  predicate InChannelRange(v: int) {
    0 <= v <= 255
  }

  predicate ValidColor(c: Color) {
    InChannelRange(c.red) && InChannelRange(c.green) && InChannelRange(c.blue) && InChannelRange(c.alpha)
  }

  /** The colour constructor; alpha defaults to fully opaque. */
  function NewColor(red: int, green: int, blue: int, alpha: int := 255): (r: Result<Color, ColorError>)
    ensures r.Success? <==> ValidColor(Color(red, green, blue, alpha))
    ensures r.Success? ==> r.value == Color(red, green, blue, alpha)
    ensures !InChannelRange(red) ==> r == Failure(RedOutOfRange)
    ensures InChannelRange(red) && !InChannelRange(green) ==> r == Failure(GreenOutOfRange)
    ensures (InChannelRange(red) && InChannelRange(green) && !InChannelRange(blue)) ==> r == Failure(BlueOutOfRange)
    ensures (InChannelRange(red) && InChannelRange(green) && InChannelRange(blue) && !InChannelRange(alpha))
              ==> r == Failure(AlphaOutOfRange)
  {
    if !InChannelRange(red) then Failure(RedOutOfRange)
    else if !InChannelRange(green) then Failure(GreenOutOfRange)
    else if !InChannelRange(blue) then Failure(BlueOutOfRange)
    else if !InChannelRange(alpha) then Failure(AlphaOutOfRange)
    else Success(Color(red, green, blue, alpha))
  }

  const Black: Color := NewColor(0, 0, 0).value
  const White: Color := NewColor(255, 255, 255).value
  const Red: Color := NewColor(255, 0, 0).value
  const Green: Color := NewColor(0, 255, 0).value
  const Blue: Color := NewColor(0, 0, 255).value

  /** A channel of 256 or -1 is rejected; an omitted alpha is 255. */
  lemma ColorValidation(red: int, green: int, blue: int)
    requires ValidColor(Color(red, green, blue, 255))
    ensures NewColor(256, green, blue).Failure? && NewColor(-1, green, blue).Failure?
    ensures NewColor(red, green, 256) == Failure(BlueOutOfRange)
    ensures NewColor(red, green, blue, -1) == Failure(AlphaOutOfRange)
    ensures NewColor(red, green, blue) == Success(Color(red, green, blue, 255))
  {
  }

  /** The named colours are valid, opaque and have the stated channels. */
  lemma NamedColors()
    ensures Black == Color(0, 0, 0, 255) && White == Color(255, 255, 255, 255)
    ensures Red == Color(255, 0, 0, 255) && Green == Color(0, 255, 0, 255)
    ensures Blue == Color(0, 0, 255, 255)
    ensures ValidColor(Black) && ValidColor(White) && ValidColor(Red) && ValidColor(Green) && ValidColor(Blue)
  {
  }
}

=== FILE: Units.dfy ===
/** PDF length units. Every geometric quantity of the layout is eventually
    expressed in points, 1/72 of an inch. Kotlin `Float` is modelled as `real`. */
module Units {

  /** A length tagged with its unit. */
  datatype PdfUnit = Point(value: real) | Millimeter(value: real) | Inch(value: real)

  /** Points per millimetre, as the library defines it. */
  const PointsPerMillimeter: real := 2.83465

  /** Points per inch. */
  const PointsPerInch: real := 72.0

  /** The conversion factor of a unit into points. */
  function Factor(u: PdfUnit): (r: real)
    ensures r > 0.0
  {
    match u
    case Point(_) => 1.0
    case Millimeter(_) => PointsPerMillimeter
    case Inch(_) => PointsPerInch
  }

  /** The length in points. Conversion is a positive scaling, so it keeps the sign. */
  function ToPoints(u: PdfUnit): (r: real)
    ensures u.value == 0.0 <==> r == 0.0
    ensures u.value > 0.0 <==> r > 0.0
  {
    match u
    case Point(v) => v
    case Millimeter(v) => v * PointsPerMillimeter
    case Inch(v) => v * PointsPerInch
  }

  /** The same unit as `u`, holding another value. */
  function WithValue(u: PdfUnit, v: real): (r: PdfUnit)
    ensures r.value == v
    ensures Factor(r) == Factor(u)
  {
    match u
    case Point(_) => Point(v)
    case Millimeter(_) => Millimeter(v)
    case Inch(_) => Inch(v)
  }

  /** `Point.of(Int)`, `Millimeter.of(Int)`, `Inch.of(Int)`: the integer is
      widened to a real before it is wrapped. */
  function PointOfInt(n: int): PdfUnit
  {
    Point(n as real)
  }

  function MillimeterOfInt(n: int): PdfUnit
  {
    Millimeter(n as real)
  }

  function InchOfInt(n: int): PdfUnit
  {
    Inch(n as real)
  }

  /** Each unit converts by its documented constant: a point is a point,
      a millimetre is 2.83465 points and one inch is 72 points. */
  lemma ConversionConstants(v: real)
    ensures ToPoints(Point(v)) == v
    ensures ToPoints(Millimeter(v)) == v * 2.83465
    ensures ToPoints(Inch(v)) == v * 72.0
    ensures ToPoints(Inch(1.0)) == 72.0
  {
  }

  /** Conversion is linear in the value: it preserves sums and scalar multiples
      within one unit. */
  lemma ToPointsLinear(u: PdfUnit, a: real, b: real, k: real)
    ensures ToPoints(WithValue(u, a + b)) == ToPoints(WithValue(u, a)) + ToPoints(WithValue(u, b))
    ensures ToPoints(WithValue(u, k * a)) == k * ToPoints(WithValue(u, a))
  {
  }

  /** Conversion is strictly monotone within one unit. */
  lemma ToPointsMonotone(u: PdfUnit, a: real, b: real)
    ensures a <= b <==> ToPoints(WithValue(u, a)) <= ToPoints(WithValue(u, b))
  {
  }

  /** The integer factories agree with the real-valued ones on the widened value. */
  lemma OfIntAgrees(n: int)
    ensures ToPoints(PointOfInt(n)) == n as real
    ensures ToPoints(MillimeterOfInt(n)) == ToPoints(Millimeter(n as real))
    ensures ToPoints(InchOfInt(n)) == (n as real) * 72.0
  {
  }

  /** The two physical constants disagree slightly: 25.4 mm, one inch, comes to
      72.00011 points rather than 72, because 2.83465 is a rounding of 72 / 25.4. */
  lemma MillimeterInchDrift()
    ensures ToPoints(Millimeter(25.4)) == ToPoints(Inch(1.0)) + 0.00011
  {
  }
}

=== FILE: Wrappers.dfy ===
/** Optional values and results with an error side, used for Kotlin's
    nullable fields and for constructors that throw on invalid input. */
module Wrappers {

  /** A Kotlin `T?`: either absent or present. */
  datatype Option<+T> = None | Some(value: T) {

    /** The Kotlin elvis operator `this ?: default`. */
    function GetOr(default: T): (r: T)
      ensures Some? ==> r == value
      ensures None? ==> r == default
    {
      match this
      case Some(v) => v
      case None => default
    }
  }

  /** The outcome of a constructor whose `init` block may reject its arguments. */
  datatype Result<+T, +E> = Success(value: T) | Failure(error: E)
}
